=== FILE: README.md ===
# AR task guidance: a Dafny model of its bookkeeping and decisions

The system guides a user through a physical task on a HoloLens headset. It runs in four phases: INIT, OPERATOR, USER_PRESCAN and USER.

- **OPERATOR.** An operator photographs each instruction. Each photo goes to an instruction parser, which names the objects involved and the action to perform.
- **USER_PRESCAN.** The user re-scans those pictures. A detection server finds the named object in each new photo, in two passes. The headset casts the detected point onto the room's spatial mesh and places a hand cue there.
- **USER.** The user steps through the instructions, and only the current instruction's cues are shown.
- **Update round.** From USER, the operator can retake pictures for some instructions. Only the instructions touched are then rescanned.

The model covers the decision logic of that loop. Each part is a module that follows one source file:

- `AppController` holds the phase machine and all its index arithmetic:
  - operator next and previous;
  - scan next and previous, and the update-mode walk through the touched instructions;
  - user next and previous;
  - the done-command gate;
  - visibility of the per-instruction visuals;
  - the handlers for arriving instruction lists.

  Each voice command, button or network event is one function from the app record to a `Step`. A `Step` holds the new record, the effects requested in order, and the exception that ended the handler, if any. As in a Unity event handler, assignments made before an exception stay in place.
- `InstructionController` covers the picture manifest:
  - `AddImagePath`, including the update-mode first-touch replacement;
  - endpoint and event selection for instruction fetches;
  - the checks made before a picture is posted;
  - what clearing the storage file does to the manifest.
- `SpatialMapping` covers:
  - the ray-cast layer mask;
  - the per-instruction visuals map;
  - the saved-camera slot;
  - the branching of `StoreMapFromMesh`: hit or miss, Pickup and PutDown slots, test mode.
- `VisualController` covers the hand enum and the standoff placement of the hand cue and the intersection marker.
- `ObjectDetector` covers:
  - the action-name-to-hand mapping;
  - the rescaling of photo pixels to screen pixels, with its vertical flip;
  - the handling of a detection result;
  - the ordering of events in an upload.
- `ObjectDetection` (server side) covers:
  - the containment test;
  - the ascending-confidence cursor filter;
  - the choice of the best box;
  - the region covering all boxes;
  - the two-pass result;
  - box scaling.
- `TaskGuidance` covers reading the parser's JSON into a detector prompt, the crop-offset translation, and reading the instruction file.
- `InstructionParser` covers the action list, the whitespace clean-up of the prompt, and cutting the JSON object out of the parser's answer.
- `Common`, `Geometry` and `Text` supply shared pieces: `Option`, the C# and Python exceptions, vectors over the reals, and models of the Python and C# string built-ins the code relies on (`find`, `rfind`, slicing with negative bounds, `strip`, `readlines`, `join`, and C#'s `ToLower`).

Oracles and parameters stand in for everything the logic does not compute itself:

- the ray cast: camera, screen point and layer mask give an optional hit;
- the two-point cue builder;
- both detector passes;
- the transport outcome of each request;
- whether a file exists;
- the processing flag of an instruction.

Coordinates are reals.

## Model

| member | source | states |
|---|---|---|
| AppController.ChangeAppState | Assets/Scripts/AppController.cs:180-193 | only the phase changes, and the label shown is that phase's |
| AppController.DisplayCurrentInstruction | Assets/Scripts/AppController.cs:351-358 | shows instruction number k+1 with its text exactly when the index names an instruction; otherwise the list indexer throws and nothing changes |
| AppController.DisplayDoneLabel | Assets/Scripts/AppController.cs:361-367 | opens the done gate, and names the operator phase only in OPERATOR |
| AppController.HideVisualsMap | Assets/Scripts/AppController.cs:701-711 | every visual becomes inactive; the map keeps its shape and entities; nothing else changes |
| AppController.DisplayTaskGuidance | Assets/Scripts/AppController.cs:671-697 | with a valid index, a visual is active iff it belongs to the current instruction; no entry is added or removed; the "No visual found" notice appears iff the current entry exists and is empty; an index outside the list throws before any visual changes |
| AppController.GuidanceIgnoresPriorVisibility | Assets/Scripts/AppController.cs:671-711 | which visuals the guidance shows does not depend on which were shown before, so hiding first changes nothing |
| AppController.StartOperator | Assets/Scripts/AppController.cs:214-227 | the operator-mode button does nothing in USER_PRESCAN or when not confirmed; otherwise it is ConfirmStartInstructions; the phase never changes here |
| AppController.ConfirmStartInstructions | Assets/Scripts/AppController.cs:231-250 | from USER it hides every visual (keeping the map's shape), clears the scan sprite, turns update mode on and forgets the touched instructions, and changes nothing else; on every path both indices reset to 0 and an instruction list is requested with operator_changed set; phase, instructions and picture paths are untouched |
| AppController.OperatorNextInstruction | Assets/Scripts/AppController.cs:254-270 | in OPERATOR it advances to the next instruction at picture 0; at the last one it leaves the index and opens the done gate; outside OPERATOR nothing happens; a valid index stays valid |
| AppController.OperatorPreviousInstruction | Assets/Scripts/AppController.cs:274-286 | in OPERATOR above 0 it steps back to picture 0 of the previous instruction; otherwise nothing happens; a valid index stays valid |
| AppController.HandleOperator | Assets/Scripts/AppController.cs:300-316 | a capture is started iff the phase is OPERATOR, not (picture > 0 and the instruction is processing), and not (in the editor with a negative index, which throws); the wait notice appears in exactly the other OPERATOR case; outside the editor the record never changes; in the editor `RunInstructionParser` first records the test picture for the current instruction |
| AppController.EditorRecordsTestPictureThenPhoto | Assets/Scripts/InstructionController.cs:68-79 | in the editor, one operator image followed by the saved photo leaves the test picture and then the photo as the instruction's last two pictures, and as its only two in update mode on an instruction not yet retaken |
| AppController.OperatorPictureSaved | Assets/Scripts/InstructionController.cs:297-313 | a saved photo is recorded for the current instruction and then posted with that index; afterwards the path is among that instruction's pictures; a negative index throws before anything is recorded |
| AppController.DoneOperator | Assets/Scripts/AppController.cs:320-348 | does nothing unless the gate is open or the phase is INIT; from INIT it only requests the stored list and closes the gate; from OPERATOR it stores the manifest and enters USER at instruction 0, changing nothing else but the visuals; it shows the USER label, hides the scan image and shows instruction 1's text with exactly instruction 0's visuals active, and the gate closes once that has succeeded; with no instructions it throws with the visuals untouched |
| AppController.DonePrescan | Assets/Scripts/AppController.cs:524-536 | only with the gate open in USER_PRESCAN: enters USER at instruction 0 with the gate closed, changing nothing else but the visuals; it shows the USER label, hides the scan image and shows instruction 1's text with exactly instruction 0's visuals active; it faults iff there are no instructions, and then leaves the visuals untouched |
| AppController.PrepareUserScan | Assets/Scripts/AppController.cs:370-406 | the scan starts at picture 0 with the total reset; outside update mode it starts at instruction 0; in update mode at the first touched instruction; with none touched, the skip branch runs DonePrescan |
| AppController.EmptyUpdateSkipOutsideScan | Assets/Scripts/AppController.cs:387-399 | the skip branch, reached before the phase is USER_PRESCAN, changes nothing but the reset indices |
| AppController.GoToNextUpdatedInstruction | Assets/Scripts/AppController.cs:412-447 | only the index changes. Outside update mode it moves iff current+1 < the number of picture lists. In update mode it moves to the element after the current one's first occurrence in the touched list, and reports success iff that element has a picture list (the index is overwritten even on failure). A current index not in the list, or the last one, leaves everything as it was |
| AppController.ScanNextPicture | Assets/Scripts/AppController.cs:453-483 | advances within the current instruction first, else to picture 0 of the next instruction, else shows the done label and leaves both indices; the total grows by exactly 1 iff it advanced; a missing picture list throws |
| AppController.ScanPreviousPicture | Assets/Scripts/AppController.cs:488-509 | steps back one picture, or to the last picture of the previous instruction from picture 0; at picture 0 of instruction 0 or below, and at a negative picture, nothing changes; a missing list throws after the index was decremented |
| AppController.ScanPreviousUndoesScanNext | Assets/Scripts/AppController.cs:453-509 | outside update mode, with every picture list non-empty, "scan previous" after a "scan next" that moved restores the whole app record, total included |
| AppController.ScanNextKeepsPosition | Assets/Scripts/AppController.cs:453-483 | outside update mode, with every picture list non-empty, "scan next" keeps the position on an existing picture |
| AppController.UserPrescanCommand | Assets/Scripts/AppController.cs:513-520 | "scan image" starts the detector iff the phase is USER_PRESCAN and changes no state |
| AppController.UserNextInstruction | Assets/Scripts/AppController.cs:647-657 | in USER below the last instruction it shows the next one's guidance; otherwise nothing; a valid index stays valid |
| AppController.UserPreviousInstruction | Assets/Scripts/AppController.cs:660-668 | in USER above 0 it shows the previous one's guidance; otherwise nothing; a valid index stays valid |
| AppController.UserNavigationStaysInRange | Assets/Scripts/AppController.cs:647-668 | any sequence of user next and previous commands keeps the index on an instruction |
| AppController.SetInstructionNum | Assets/Scripts/AppController.cs:715-732 | acts only in OPERATOR or USER; it sets the index and resets the picture, then shows the instruction (OPERATOR) or the guidance (USER), which faults iff the number names no instruction |
| AppController.TakePictureButton | Assets/Scripts/AppController.cs:760-770 | is "operator image" in OPERATOR and "scan image" in USER_PRESCAN; outside OPERATOR the record never changes, and in INIT and USER nothing is requested |
| AppController.DoneButton | Assets/Scripts/AppController.cs:774-784 | is "operator done" in INIT and OPERATOR, "scan done" in USER_PRESCAN, and does nothing in USER |
| AppController.DoneCommandsAgree | Assets/Scripts/AppController.cs:320-348 | leaving OPERATOR by "operator done" and leaving USER_PRESCAN by "scan done" show the same effects and visuals with the same outcome |
| AppController.SecondDoneIgnored | Assets/Scripts/AppController.cs:774-784 | after a done command from OPERATOR or USER_PRESCAN the app is in USER, where another done press changes nothing |
| AppController.HandleReceivedNewInstructions | Assets/Scripts/AppController.cs:154-165 | with a valid index it enters OPERATOR; outside update mode it also empties the picture manifest and the storage file and deletes the stored pictures' files, keeping the touched list, the instructions and the index; an invalid index throws first |
| AppController.HandleReceivedInstructions | Assets/Scripts/AppController.cs:169-177 | reloads the picture lists from storage, prepares the scan and enters USER_PRESCAN unless the preparation threw |
| AppController.InstructionsArrive | Assets/Scripts/InstructionController.cs:100-119 | a transport failure changes nothing; a list replaces the instructions and runs the new-instructions handler iff operator_changed, else the stored-instructions handler |
| AppController.UpdateRoundKeepsPictures | Assets/Scripts/AppController.cs:154-165 | an update round started from USER, followed by a non-empty list, enters OPERATOR at the first instruction (index 0) with every picture path kept and no instruction touched |
| AppController.FreshRoundClearsPictures | Assets/Scripts/AppController.cs:154-165 | a fresh round from INIT, followed by a non-empty list, enters OPERATOR with the manifest and storage emptied |
| InstructionController.AddImagePath | Assets/Scripts/InstructionController.cs:221-240 | the list of lists is padded so that index n exists; no other entry changes; in update mode the first picture for n replaces its list and records n once; otherwise the path is appended last |
| InstructionController.AddImagePathKeepsConsistent | Assets/Scripts/InstructionController.cs:234-239 | the touched list never holds a duplicate, and every touched instruction has a list |
| InstructionController.UpdatedInFirstTouchOrder | Assets/Scripts/InstructionController.cs:234-238 | after any sequence of update-mode adds, the touched list has grown by exactly the instructions pictured, each once, in order of first touch |
| InstructionController.UntouchedInstructionsKept | Assets/Scripts/InstructionController.cs:221-240 | an instruction no add names keeps its picture list through any sequence of adds |
| InstructionController.ClearStorageFile | Assets/Scripts/InstructionController.cs:260-294 | the in-memory lists and the storage file are emptied and the touched list is kept; outside the editor exactly the stored files are deleted, and in the editor none are |
| InstructionController.SelectEndpoint | Assets/Scripts/InstructionController.cs:86-93 | update selects the update endpoint; otherwise operator_changed chooses between new and get |
| InstructionController.ReceiveInstructions | Assets/Scripts/InstructionController.cs:82-121 | on failure the instructions stay and no event fires; on success they are replaced and exactly one event fires, chosen by operator_changed alone |
| InstructionController.CheckPictureUpload | Assets/Scripts/InstructionController.cs:130-140 | a missing file is rejected first; then an index greater than the instruction count (equal passes) |
| InstructionController.SendPictureToParser | Assets/Scripts/InstructionController.cs:124-141 | the picture is rejected iff the file is missing or the index exceeds the count, and otherwise posted with that index |
| SpatialMapping.LayerMask | Assets/Scripts/SpatialMapping.cs:12-12 | the mask is 1 << 3 = 8 |
| SpatialMapping.MaskSelectsOnlyMeshLayer | Assets/Scripts/SpatialMapping.cs:121-121 | the ray can hit the spatial-mesh layer and no other of the 32 layers |
| SpatialMapping.AddToVisualsMap | Assets/Scripts/SpatialMapping.cs:97-112 | the map is padded so that index n exists; entry n becomes exactly the new visuals, in order; no other entry changes |
| SpatialMapping.AddToVisualsMapOverwrites | Assets/Scripts/SpatialMapping.cs:110-111 | installing twice for one instruction keeps only the second cue |
| SpatialMapping.StoreState | Assets/Scripts/SpatialMapping.cs:297-325 | the single slot holds a non-rendering copy of the main camera; projection and pose come from the frame only when it has location data; nothing else changes |
| SpatialMapping.ClearState | Assets/Scripts/SpatialMapping.cs:327-331 | with a saved camera it empties the slot; without one it is a null dereference |
| SpatialMapping.StoreThenClear | Assets/Scripts/SpatialMapping.cs:297-331 | storing then clearing leaves the slot empty and the rest of the mapper as it was |
| SpatialMapping.ActivateAll | Assets/Scripts/SpatialMapping.cs:175-181 | activates entries in order and faults iff some entry is null |
| SpatialMapping.ActivatePresent | Assets/Scripts/SpatialMapping.cs:175-181 | activates every non-null entry and skips nulls |
| SpatialMapping.StoreMapFromMesh | Assets/Scripts/SpatialMapping.cs:116-194 | no saved camera outside test mode faults with nothing changed. A miss only warns. On a hit, Pickup stores the hit in slot 0 and PutDown in slot 1, leaving the other slot. Once both slots are set, the cue built from the two hits replaces entry n outside test mode, and is shown in test mode. A real kind outside test mode puts exactly two new entities, the marker at the hit point, into entry n alone. NumHands and Error throw on a hit. Test mode never writes the map. The cameras are never changed |
| SpatialMapping.PickupThenPutDownPlacesCue | Assets/Scripts/SpatialMapping.cs:145-170 | across two photos, a Pickup hit leaves the visuals map as it was and the next photo's PutDown hit installs the cue built from both hits as entry n |
| SpatialMapping.StoreMapFromMeshAsWritten | Assets/Scripts/SpatialMapping.cs:116-194 | agrees with StoreMapFromMesh everywhere except the test-mode single-point hit |
| SpatialMapping.TestModeHitFaultsAsWritten | Assets/Scripts/SpatialMapping.cs:174-181 | as written, a test-mode single-point hit raises a null-reference fault; the null-safe version shows the shared hand and marker without fault and without writing the map |
| VisualController.Standoff | Assets/Scripts/VisualController.cs:64-68 | the standoff is 0.20 for Press and 0.10 for Twist, Pickup and Pull |
| VisualController.GestureKinds | Assets/Scripts/VisualController.cs:20-28 | exactly Press, Twist, Pickup and Pull index inside the per-hand tables; NumHands and Error index past them |
| VisualController.PlaceHandVisual | Assets/Scripts/VisualController.cs:62-118 | outside test mode: two fresh entities, the hand offset from the point by its standoff along the normal (straight up for Pickup) and the marker at the point, with no shared object touched. In test mode: two nulls, and the shared hand and marker are moved there and shown |
| VisualController.StandoffDistance | Assets/Scripts/VisualController.cs:84-89 | for a unit normal, a non-Pickup hand sits exactly its standoff from the surface point |
| VisualController.PickupIgnoresNormal | Assets/Scripts/VisualController.cs:76-81 | the Pickup placement does not depend on the surface normal |
| ObjectDetector.GetHandVisual | Assets/Scripts/ObjectDetector.cs:71-93 | after lower-casing, exactly "press", "twist", "pick up" and "pull" give Press, Twist, Pickup and Pull; anything else gives Error, never NumHands |
| ObjectDetector.HandNamesRoundTrip | Assets/Scripts/ObjectDetector.cs:71-93 | each real kind is recognised from its own name |
| ObjectDetector.GetHandVisualIgnoresCase | Assets/Scripts/ObjectDetector.cs:73-73 | strings equal up to the case of ASCII letters map to the same kind |
| ObjectDetector.TransformBoxToScreenPixels | Assets/Scripts/ObjectDetector.cs:123-133 | x' = x·W/w and H − y' = y·H/h: the point is scaled to screen pixels and the vertical axis is flipped |
| ObjectDetector.TransformRoundTrip | Assets/Scripts/ObjectDetector.cs:123-133 | mapping screen pixels back recovers the photo point, so rescaling loses nothing |
| ObjectDetector.TransformCornersAndCentre | Assets/Scripts/ObjectDetector.cs:123-133 | (0,0) goes to (0,H), (w,h) to (W,0), and the photo centre to the screen centre |
| ObjectDetector.HandleDetectionResults | Assets/Scripts/ObjectDetector.cs:96-133 | an empty centre or action places nothing; one coordinate faults on reading the second; without a saved camera the rescaling throws a null dereference; Error calls neither StoreMapFromMesh nor ClearState; a valid kind calls StoreMapFromMesh with the rescaled point and then ClearState, leaving no saved camera |
| ObjectDetector.UploadImage | Assets/Scripts/ObjectDetector.cs:220-272 | a missing file, then an index above the count, throws before the request. Otherwise the request comes first. A completion event occurs iff the answer is delivered, at most once, and with the body and the index captured at photo time. An exception from the event's listener ends the upload without a delete; otherwise the delete attempt comes last. An exception is always the last event |
| ObjectDetector.UploadAndHandle | Assets/Scripts/ObjectDetector.cs:254-271 | the completion event is handled by HandleDetectionResults for the captured index, and its exception, if any, is the one the upload ends with; without a delivered body nothing reaches the mapper |
| ObjectDetector.DeliveredDetectionStoresThenDeletes | Assets/Scripts/ObjectDetector.cs:254-271 | a delivered body with two coordinates, a known action and a saved camera stores the cue at the captured index, releases the camera, and the picture is then deleted |
| ObjectDetector.FaultingDetectionKeepsPicture | Assets/Scripts/ObjectDetector.cs:254-271 | a delivered body with one coordinate, or with no saved camera, ends the upload with that exception: nothing reaches the mapper and the picture is not deleted |
| ObjectDetection.CheckContainsBox | object_detection_scripts/object_detection.py:152-168 | true iff some other result's centre lies strictly inside the box's [x±w/2]×[y±h/2] |
| ObjectDetection.Insert | object_detection_scripts/object_detection.py:187-187 | inserting into a confidence-sorted list keeps it sorted and adds exactly the new element |
| ObjectDetection.SortByConfidence | object_detection_scripts/object_detection.py:187-187 | the result is in ascending confidence and is a permutation of the input |
| ObjectDetection.DiscardContainingBoxes | object_detection_scripts/object_detection.py:189-203 | the in-place cursor loop computes the filter: each candidate, in order, is dropped iff it contains the centre of a candidate kept so far or not yet examined |
| ObjectDetection.KeepUncontainingNonEmpty | object_detection_scripts/object_detection.py:206-206 | a non-empty input leaves a non-empty kept list, so the assertion holds |
| ObjectDetection.KeepUncontainingSelects | object_detection_scripts/object_detection.py:194-203 | the filter only keeps candidates, and keeps earlier decisions |
| ObjectDetection.KeptBoxesContainNoKeptCentre | object_detection_scripts/object_detection.py:194-203 | no surviving box contains the centre of another survivor |
| ObjectDetection.MaxIndex | object_detection_scripts/object_detection.py:209-209 | the position of a maximal confidence, the first such, as Python's max picks it |
| ObjectDetection.DetermineBestBox | object_detection_scripts/object_detection.py:170-216 | fails the assertion iff there are no boxes; otherwise it returns an input box that survived the filter, with confidence maximal among the survivors and strictly above every survivor before it (the first maximal one) |
| ObjectDetection.BestBoxContainsNoSurvivor | object_detection_scripts/object_detection.py:194-216 | the chosen box contains the centre of no other survivor |
| ObjectDetection.MinOf | object_detection_scripts/object_detection.py:232-233 | Python's min: a member of the sequence that is at most every element |
| ObjectDetection.MaxOf | object_detection_scripts/object_detection.py:235-236 | Python's max: a member of the sequence that is at least every element |
| ObjectDetection.RegionContainingAllBoxes | object_detection_scripts/object_detection.py:218-238 | no boxes raise ValueError; otherwise every box's corners lie inside the region, and each side touches some box |
| ObjectDetection.RunObjectDetectionWithCrop | object_detection_scripts/object_detection.py:336-404 | no first-pass or no second-pass boxes give nothing; otherwise the centre is the (x, y) of the box DetermineBestBox picks from the second pass, a most confident survivor, and the offset is the region's top-left |
| ObjectDetection.ScaleDetections | object_detection_scripts/object_detection.py:71-75 | every pixel box is its normalised box times [w, h, w, h], kept next to it with its confidence and phrase, one per model box |
| ObjectDetection.ContainmentIgnoresImageSize | object_detection_scripts/object_detection.py:72-73 | whether a box holds another detection's centre is the same in pixels as on the normalised boxes |
| ObjectDetection.ScalingPreservesContainment | object_detection_scripts/object_detection.py:72-73 | containment is the same for normalised and scaled boxes |
| TaskGuidance.GetObjectsFromJson | object_detection_scripts/task_guidance.py:15-30 | a missing file and invalid JSON, and only they, become DetectionException; a missing field escapes as KeyError and an empty action list as IndexError; it succeeds exactly when both fields are present and there is an action, and then the prompt is the objects joined with " . " and the action is the first listed |
| TaskGuidance.PromptJoinsObjects | object_detection_scripts/task_guidance.py:22-23 | the prompt is every object but the last followed by " . ", then the last object, so its length is the objects' plus 3 per neighbouring pair; no objects give an empty prompt |
| TaskGuidance.DetectObjectsInImage | object_detection_scripts/task_guidance.py:33-55 | errors propagate and it succeeds exactly when the parsed file does; no detection gives (None, ""); otherwise the centre is the crop's top-left plus the centre in the crop, componentwise, with the first action |
| TaskGuidance.GetInstructionsFromFile | object_detection_scripts/task_guidance.py:58-70 | a missing or empty file raises DetectionException; otherwise the i-th instruction is the i-th line readlines returns, stripped; there are as many as newlines plus one for an unterminated last line, each without a newline or surrounding whitespace |
| TaskGuidance.StripNoNewline | object_detection_scripts/task_guidance.py:69-69 | stripping a line read by readlines removes its newline |
| InstructionParser.ActionString | object_detection_scripts/instruction_parser.py:23-24 | the prompt offers "press, twist" |
| InstructionParser.OfferedActionsHaveHands | object_detection_scripts/instruction_parser.py:23-23 | every offered action maps to a single-point hand kind on the headset |
| InstructionParser.CollapseWhitespace | object_detection_scripts/instruction_parser.py:40-40 | no two whitespace characters are adjacent, every whitespace is ' ', the non-whitespace characters are kept in order, only an empty prompt becomes empty, and the result is the character-by-character reading of the substitution |
| Text.CollapseIsCharacterwise | object_detection_scripts/instruction_parser.py:40-40 | replacing each whitespace run by one ' ' equals reading left to right, dropping whitespace that follows whitespace and turning other whitespace into ' ' |
| InstructionParser.CollapseWhitespaceIdempotent | object_detection_scripts/instruction_parser.py:40-40 | collapsing twice is collapsing once |
| InstructionParser.ExtractJsonBetweenBraces | object_detection_scripts/instruction_parser.py:81-85 | with a '{' before the last '}', the slice runs from the first '{' through the last '}' |
| InstructionParser.ExtractJsonWithoutClosingBrace | object_detection_scripts/instruction_parser.py:83-85 | with no '}', the end is 0 and the slice is empty |
| InstructionParser.ExtractJsonWithoutOpeningBrace | object_detection_scripts/instruction_parser.py:83-85 | with no '{', the start -1 means the last position: the slice is "}" when the text ends in one, and empty otherwise |
| Text.Join | object_detection_scripts/task_guidance.py:23-23 | join starts with the first part and is as long as the parts plus one separator per neighbouring pair; no parts give the empty string |
| Text.JoinIsTerminatedParts | object_detection_scripts/task_guidance.py:23-23 | join equals every part but the last followed by the separator, then the last part |
| Text.Strip | object_detection_scripts/task_guidance.py:69-69 | strip keeps a contiguous middle of the string with only whitespace before and after it, and the result neither starts nor ends with whitespace |
| Text.StripIdempotent | object_detection_scripts/task_guidance.py:69-69 | stripping twice is stripping once |
| Text.ReadLinesRoundTrip | object_detection_scripts/task_guidance.py:62-62 | concatenating the lines readlines returns gives back the text |
| Text.ReadLinesCount | object_detection_scripts/task_guidance.py:62-62 | readlines returns as many lines as newlines, plus one for an unterminated last line |

## Left out

- Hardware, network and coroutines are left out: photo capture, `UnityWebRequest`, texture loading, and the waits inside `DisplayPicture` and `UpdateCenterText`. Each handler is one atomic step. Request outcomes and file existence are parameters. The picture label takes the scan total at the moment of display.
- Engine geometry is left out: `ScreenPointToRay`, `Physics.Raycast`, quaternions, `SetCameraTransform` and `CopyFrom`. The ray cast is an oracle over a camera, a screen point and the mask. Rotations are not modelled; matrices are carried but never computed with.
- Floating point is modelled with reals, so single-precision rounding in the rescaling, the standoff and the box maths is not modelled.
- JSON persistence (`StoreImagePathsJson` and `LoadImagePathsJson`) is a direct copy between the manifest and the stored lists. An empty storage file counts as an empty list. Newtonsoft decoding of server answers is not modelled; a delivered answer arrives decoded.
- Before the first fetch, `instructions` is null; the model treats it as an empty list.
- The Python `str` built-ins are modelled over the ten ASCII whitespace characters (space, \t, \n, \v, \f, \r and U+001C to U+001F) Non-ASCII whitespace such as U+0085 and U+00A0 is not modelled, and neither is universal-newline translation on reading.
- Non-string JSON values and the TypeErrors they would raise are left out.
- GroundingDINO inference, drawing, cropping and saving images, and deleting files on the server are left out. Each detector pass is an oracle, and cropping is part of the second-pass oracle.
- UI and voice wiring are left out: dialogs, `CreateInstructionButtons`, the per-frame arrow in `Update`, debug commands and `PlaneController.cs`.
- Where revisions of the source disagree, the model takes these choices:
  - The 3-argument `StoreMapFromMesh` call is read as test = false.
  - `UpdatePictureText` is not part of this model.
  - `pickupCoords` is two optional slots.
  - `PlaceHandPickupVisuals` is an oracle.
  - `Hand.PutDown` is a separate target.
  - The undeclared `instructionProcessing` is a bool parameter, so the list read it stands for cannot fault.
  - The editor's test picture path, built from `Application.dataPath`, is a parameter.
  - `currentPictureNum` is a field of the app record.
  - The detection server's missing "center" field is read as an arbitrary delivered body.
  - The parser prompt asks for a field named 'action', while the reader looks up "actions"; the reader's name is modelled.
- ObjectDetection.SortByConfidence: the insertion sort keeps equal-confidence boxes in arrival order, as Python's stable sort does, but the contract states only sortedness and permutation.
- ObjectDetector.TransformBoxToScreenPixels: the photo resolution is required to be positive, which the camera always reports.
- AppController.ScanPreviousUndoesScanNext: outside update mode only. In update mode the walk is not reversible.
- ObjectDetector.UploadAndHandle: the captured index is a natural number, as the app's instruction index is whenever a photo is taken; a negative index reaching `AddToVisualsMap` is not modelled.
- TaskGuidance.DetectObjectsInImage: the deletion of the cropped image is not modelled.
- ObjectDetector.GetHandVisual: C#'s culture-sensitive `string.ToLower()` is modelled as lower-casing the ASCII letters A to Z only. Culture rules (such as the Turkish dotless i, under which "PICK UP" becomes "pıck up" and gives Error) and the Unicode mappings of non-ASCII letters (such as the Kelvin sign becoming 'k') are not modelled, so the model's result differs from the app's for such inputs.

## Findings

| source | as written | input that shows it | evidently intended | confidence | as-written member | corrected member |
|---|---|---|---|---|---|---|
| Assets/Scripts/SpatialMapping.cs:174-181 with Assets/Scripts/VisualController.cs:97-117 | In test mode, `PlaceHandVisual` returns an array of two nulls after moving and showing the shared hand and marker. `StoreMapFromMesh` then calls `SetActive(true)` on each entry. | Test mode, a ray-cast hit, and a single-point kind such as Press: the first `SetActive` raises a NullReferenceException. The shared objects are already shown. | The test-mode branch shows the shared objects and finishes without an exception. | not executed | SpatialMapping.StoreMapFromMeshAsWritten, SpatialMapping.TestModeHitFaultsAsWritten | SpatialMapping.StoreMapFromMesh |

=== FILE: app_controller.dfy ===
/** The app's workflow: the four phases, the instruction and picture
    indices, the done-command gate and which per-instruction visuals are
    shown. Each voice command, button or network event is one handler, and
    each handler is one function from the app record to a `Step`: the new
    record, the observable effects it requested in order, and the exception
    that ended it, if any. An exception leaves the assignments made before
    it in place, as a Unity event handler does. */
module AppController {

  import opened Common
  import opened VisualController
  import IC = InstructionController

  datatype AppState = Init | Operator | UserPrescan | User

  /** The text of the state label. */
  function StateLabel(s: AppState): string {
    match s
    case Init => ""
    case Operator => "Operator"
    case UserPrescan => "Scanning"
    case User => "User"
  }

  /** Everything the handlers read and write.
      - `current` and `picture` are the instruction and picture indices.
      - `scanTotal` counts pictures scanned.
      - `allowDone` gates the done command.
      - `manifest` holds the picture paths per instruction and the
        instructions touched in update mode.
      - `stored` is the content of the storage file.
      - `inEditor` tells whether the app runs inside the editor. */
  datatype App = App(
    state: AppState,
    instructions: seq<string>,
    current: int,
    picture: int,
    scanTotal: int,
    allowDone: bool,
    updateMode: bool,
    manifest: IC.Manifest,
    stored: seq<seq<string>>,
    visualsMap: seq<seq<Entity>>,
    inEditor: bool)

  const WaitMessage: string := "Wait for previous image to process."
  const NoVisualMessage: string := "No visual found for this instruction."

  /** What a handler asks of the screen, the camera, the server or the disk. */
  datatype Effect =
    | StateText(caption: string)
    | InstructionText(number: int, text: string)
    | DoneLabel(mode: string)
    | ShowPicture(instruction: int, picture: int, number: int)
    | CenterNotice(message: string)
    | Arrow(shown: bool)
    | ScanImage(shown: bool)
    | ClearScanSprite
    | StartParser
    | StartDetector
    | FetchInstructions(operatorChanged: bool, update: bool)
    | LoadTextures(updatedOnly: bool)
    | DeleteFiles(files: seq<string>)
    | ParserRequest(post: IC.ParserPost)

  datatype Step = Step(app: App, effects: seq<Effect>, fault: Option<Fault>)

  function Ok(a: App, effects: seq<Effect>): Step {
    Step(a, effects, None)
  }

  /** The current index names an instruction. */
  predicate InRange(a: App) {
    0 <= a.current < |a.instructions|
  }

  // ---------------------------------------------------------------------------
  // Display helpers

  function ChangeAppState(a: App, s: AppState): (r: Step)
    ensures r.app == a.(state := s) && r.fault.None?
    ensures r.effects == [StateText(StateLabel(s))]
  {
    Ok(a.(state := s), [StateText(StateLabel(s))])
  }

  /** Shows "Instruction k+1: text"; an index outside the list throws. */
  function DisplayCurrentInstruction(a: App): (r: Step)
    ensures r.app == a
    ensures r.fault.None? <==> InRange(a)
    ensures InRange(a) ==> r.effects == [InstructionText(a.current + 1, a.instructions[a.current])]
    ensures !InRange(a) ==> r.fault == Some(ArgumentOutOfRange) && r.effects == []
  {
    if 0 <= a.current < |a.instructions| then
      Ok(a, [InstructionText(a.current + 1, a.instructions[a.current])])
    else
      Step(a, [], Some(ArgumentOutOfRange))
  }

  /** The end-of-phase label, naming the operator phase in OPERATOR and the
      scan phase otherwise; it opens the done gate. */
  function DisplayDoneLabel(a: App): (r: Step)
    ensures r.app == a.(allowDone := true) && r.fault.None?
    ensures r.effects == [DoneLabel(if a.state == Operator then "operator" else "scan")]
  {
    Ok(a.(allowDone := true), [DoneLabel(if a.state == Operator then "operator" else "scan")])
  }

  /** The picture currently selected, labelled with the running total. */
  function DisplayPicture(a: App): Effect {
    ShowPicture(a.current, a.picture, a.scanTotal + 1)
  }

  // ---------------------------------------------------------------------------
  // Visibility of the per-instruction visuals

  /** The two maps hold the same entities in the same places, up to their
      `active` flag. */
  predicate SameShape(m: seq<seq<Entity>>, m': seq<seq<Entity>>) {
    && |m'| == |m|
    && (forall i :: 0 <= i < |m| ==> |m'[i]| == |m[i]|)
    && (forall i, j :: 0 <= i < |m| && 0 <= j < |m[i]| ==> m'[i][j].(active := m[i][j].active) == m[i][j])
  }

  function ShowOnly(m: seq<seq<Entity>>, k: int): (r: seq<seq<Entity>>)
    ensures SameShape(m, r)
    ensures forall i, j :: 0 <= i < |r| && 0 <= j < |r[i]| ==> (r[i][j].active <==> i == k)
  {
    seq(|m|, i requires 0 <= i < |m| => seq(|m[i]|, j requires 0 <= j < |m[i]| => m[i][j].(active := i == k)))
  }

  /** Deactivates every visual and keeps the map's shape. */
  function HideVisualsMap(a: App): (r: Step)
    ensures r.fault.None? && r.effects == []
    ensures r.app == a.(visualsMap := r.app.visualsMap)
    ensures SameShape(a.visualsMap, r.app.visualsMap)
    ensures forall i, j :: 0 <= i < |r.app.visualsMap| && 0 <= j < |r.app.visualsMap[i]| ==> !r.app.visualsMap[i][j].active
  {
    Ok(a.(visualsMap := ShowOnly(a.visualsMap, -1)), [])
  }

  /** Shows the current instruction and activates exactly its visuals; an
      empty entry for it hides the arrow and raises a notice. An index
      outside the instruction list throws before any visual changes. */
  function DisplayTaskGuidance(a: App): (r: Step)
    ensures r.fault.None? <==> InRange(a)
    ensures !InRange(a) ==> r.app == a && r.effects == []
    ensures r.app == a.(visualsMap := r.app.visualsMap)
    ensures SameShape(a.visualsMap, r.app.visualsMap)
    ensures InRange(a) ==> forall i, j :: 0 <= i < |r.app.visualsMap| && 0 <= j < |r.app.visualsMap[i]| ==>
              (r.app.visualsMap[i][j].active <==> i == a.current)
    ensures InRange(a) ==>
      (CenterNotice(NoVisualMessage) in r.effects <==> a.current < |a.visualsMap| && a.visualsMap[a.current] == [])
    ensures InRange(a) ==> |r.effects| > 0 && r.effects[0] == InstructionText(a.current + 1, a.instructions[a.current])
  {
    var d := DisplayCurrentInstruction(a);
    if d.fault.Some? then d
    else
      var notice := if 0 <= a.current < |a.visualsMap| && a.visualsMap[a.current] == []
                    then [Arrow(false), CenterNotice(NoVisualMessage)] else [];
      Ok(a.(visualsMap := ShowOnly(a.visualsMap, a.current)), d.effects + [Arrow(true)] + notice)
  }

  /** Which visuals the guidance shows does not depend on which were shown
      before. */
  lemma GuidanceIgnoresPriorVisibility(a: App)
    requires InRange(a)
    ensures DisplayTaskGuidance(HideVisualsMap(a).app).app == DisplayTaskGuidance(a).app
  {
    var h: seq<seq<Entity>> := HideVisualsMap(a).app.visualsMap;
    var m1: seq<seq<Entity>> := DisplayTaskGuidance(HideVisualsMap(a).app).app.visualsMap;
    var m2: seq<seq<Entity>> := DisplayTaskGuidance(a).app.visualsMap;
    assert |m1| == |m2|;
    forall i | 0 <= i < |m1|
      ensures m1[i] == m2[i]
    {
      assert |m1[i]| == |m2[i]|;
      forall j | 0 <= j < |m1[i]|
        ensures m1[i][j] == m2[i][j]
      {
        assert m1[i][j].(active := a.visualsMap[i][j].active) == a.visualsMap[i][j];
        assert h[i][j].(active := a.visualsMap[i][j].active) == a.visualsMap[i][j];
      }
    }
  }

  // ---------------------------------------------------------------------------
  // Operator phase

  /** Starting (or restarting) operator mode after confirmation. From USER
      this starts an update round: visuals hidden, update mode on, no
      instruction touched yet. Every path asks for the new instruction list
      and resets both indices. */
  function ConfirmStartInstructions(a: App): (r: Step)
    ensures r.fault.None?
    ensures r.app.current == 0 && r.app.picture == 0
    ensures a.state == User ==> r.app.updateMode && r.app.manifest.updated == []
    ensures a.state == User ==>
      && r.app == a.(updateMode := true, manifest := a.manifest.(updated := []), current := 0, picture := 0,
                     visualsMap := r.app.visualsMap)
      && SameShape(a.visualsMap, r.app.visualsMap)
      && (forall i, j :: 0 <= i < |r.app.visualsMap| && 0 <= j < |r.app.visualsMap[i]| ==> !r.app.visualsMap[i][j].active)
      && ClearScanSprite in r.effects
    ensures a.state != User ==> r.app == a.(current := 0, picture := 0)
    ensures FetchInstructions(true, r.app.updateMode) in r.effects
    ensures r.app.state == a.state && r.app.instructions == a.instructions && r.app.manifest.paths == a.manifest.paths
  {
    if a.state == User then
      var h := HideVisualsMap(a).app;
      var b := h.(updateMode := true, manifest := h.manifest.(updated := []));
      Ok(b.(current := 0, picture := 0), [FetchInstructions(true, true), ClearScanSprite])
    else
      Ok(a.(current := 0, picture := 0), [FetchInstructions(true, a.updateMode)])
  }

  /** The operator-mode button: outside the scan phase it asks for
      confirmation, and `confirmed` is the operator's answer. */
  function StartOperator(a: App, confirmed: bool): (r: Step)
    ensures a.state == UserPrescan || !confirmed ==> r == Ok(a, [])
    ensures a.state != UserPrescan && confirmed ==> r == ConfirmStartInstructions(a)
    ensures r.app.state == a.state
  {
    if a.state != UserPrescan && confirmed then ConfirmStartInstructions(a) else Ok(a, [])
  }

  /** "Operator next": moves to the next instruction with picture 0, or at
      the last one shows the done label. */
  function OperatorNextInstruction(a: App): (r: Step)
    ensures a.state != Operator ==> r == Ok(a, [])
    ensures a.state == Operator && a.current < |a.instructions| - 1 ==>
      r.app == a.(current := a.current + 1, picture := 0)
    ensures a.state == Operator && a.current == |a.instructions| - 1 ==>
      r.app == a.(allowDone := true) && r.effects == [DoneLabel("operator")]
    ensures a.state == Operator && a.current > |a.instructions| - 1 ==> r == Ok(a, [])
    ensures InRange(a) ==> InRange(r.app) && r.fault.None?
  {
    if a.state == Operator then
      if a.current < |a.instructions| - 1 then
        DisplayCurrentInstruction(a.(current := a.current + 1, picture := 0))
      else if a.current == |a.instructions| - 1 then
        DisplayDoneLabel(a)
      else Ok(a, [])
    else Ok(a, [])
  }

  /** "Operator previous": moves back one instruction with picture 0. */
  function OperatorPreviousInstruction(a: App): (r: Step)
    ensures !(a.state == Operator && a.current > 0) ==> r == Ok(a, [])
    ensures a.state == Operator && a.current > 0 ==> r.app == a.(current := a.current - 1, picture := 0)
    ensures InRange(a) ==> InRange(r.app) && r.fault.None?
  {
    if a.state == Operator && a.current > 0 then
      DisplayCurrentInstruction(a.(current := a.current - 1, picture := 0))
    else Ok(a, [])
  }

  /** "Operator image": asks for a new photo unless an earlier photo of
      the same instruction is still being processed. `processing` is the
      processing flag of the current instruction. Inside the editor the
      test picture at `testPath` is recorded for the current instruction
      before the photo is requested; a negative index throws in the list
      indexer first. */
  function HandleOperator(a: App, processing: bool, testPath: string): (r: Step)
    ensures a.state != Operator ==> r == Ok(a, [])
    ensures StartParser in r.effects <==>
      a.state == Operator && !(a.picture > 0 && processing) && !(a.inEditor && a.current < 0)
    ensures CenterNotice(WaitMessage) in r.effects <==> a.state == Operator && a.picture > 0 && processing
    ensures r.fault.Some? <==> a.state == Operator && !(a.picture > 0 && processing) && a.inEditor && a.current < 0
    ensures r.fault.Some? ==> r == Step(a, [], Some(ArgumentOutOfRange))
    ensures !(a.inEditor && StartParser in r.effects) ==> r.app == a
    ensures a.inEditor && a.current >= 0 && StartParser in r.effects ==>
      && r.app == a.(manifest := IC.AddImagePath(a.manifest, a.current, testPath, a.updateMode))
      && testPath in IC.PicturesOf(r.app.manifest, a.current)
  {
    if a.state == Operator then
      if a.picture > 0 && processing then Ok(a, [CenterNotice(WaitMessage)])
      else if a.inEditor then
        if a.current < 0 then Step(a, [], Some(ArgumentOutOfRange))
        else
          var m := IC.AddImagePath(a.manifest, a.current, testPath, a.updateMode);
          assert m.paths[a.current][|m.paths[a.current]| - 1] == testPath;
          Ok(a.(manifest := m), [StartParser])
      else Ok(a, [StartParser])
    else Ok(a, [])
  }

  /** Inside the editor one "operator image" followed by the saved photo
      records the test picture and then the photo for the instruction, as
      its last two pictures; in update mode on an instruction not yet
      retaken they are its only pictures. */
  lemma EditorRecordsTestPictureThenPhoto(a: App, processing: bool, testPath: string, filePath: string,
                                          fileExists: bool, parsed: bool)
    requires a.state == Operator && a.inEditor && a.current >= 0 && !(a.picture > 0 && processing)
    ensures var s := HandleOperator(a, processing, testPath);
      var t := OperatorPictureSaved(s.app, filePath, fileExists, parsed);
      var pics := IC.PicturesOf(t.app.manifest, a.current);
      && t.fault.None?
      && |pics| >= 2 && pics[|pics| - 2..] == [testPath, filePath]
      && (a.updateMode && a.current !in a.manifest.updated ==> pics == [testPath, filePath])
  {
    var s := HandleOperator(a, processing, testPath);
    var m1 := s.app.manifest;
    var t := OperatorPictureSaved(s.app, filePath, fileExists, parsed);
    assert !(a.updateMode && a.current !in m1.updated);
    var pics := IC.PicturesOf(t.app.manifest, a.current);
    assert pics == m1.paths[a.current] + [filePath];
  }

  /** The operator's photo is on disk: its path is recorded for the current
      instruction, then posted to the parser. A negative index throws in the
      list indexer before anything is recorded. */
  function OperatorPictureSaved(a: App, filePath: string, fileExists: bool, parsed: bool): (r: Step)
    ensures a.current < 0 ==> r == Step(a, [], Some(ArgumentOutOfRange))
    ensures a.current >= 0 ==>
      && r.fault.None?
      && r.app == a.(manifest := IC.AddImagePath(a.manifest, a.current, filePath, a.updateMode))
      && r.effects == [ParserRequest(IC.SendPictureToParser(fileExists, a.current, |a.instructions|, parsed))]
    ensures a.current >= 0 ==> filePath in IC.PicturesOf(r.app.manifest, a.current)
  {
    if a.current < 0 then Step(a, [], Some(ArgumentOutOfRange))
    else
      var m := IC.AddImagePath(a.manifest, a.current, filePath, a.updateMode);
      assert m.paths[a.current][|m.paths[a.current]| - 1] == filePath;
      Ok(a.(manifest := m), [ParserRequest(IC.SendPictureToParser(fileExists, a.current, |a.instructions|, parsed))])
  }

  /** What both done commands show on entering USER: the phase label, the
      scan image hidden, and then instruction 0's guidance with exactly its
      visuals active; with no instructions, the throw leaves the visuals
      as they were. */
  predicate EntersUserAtFirst(a: App, r: Step) {
    && |r.effects| >= 2
    && r.effects[..2] == [StateText(StateLabel(User)), ScanImage(false)]
    && SameShape(a.visualsMap, r.app.visualsMap)
    && (r.fault.Some? ==> r.fault == Some(ArgumentOutOfRange) && r.app.visualsMap == a.visualsMap && |r.effects| == 2)
    && (r.fault.None? ==>
          && |r.effects| > 2 && |a.instructions| > 0
          && r.effects[2] == InstructionText(1, a.instructions[0])
          && (forall i, j :: 0 <= i < |r.app.visualsMap| && 0 <= j < |r.app.visualsMap[i]| ==>
                (r.app.visualsMap[i][j].active <==> i == 0))
          && (CenterNotice(NoVisualMessage) in r.effects <==> |a.visualsMap| > 0 && a.visualsMap[0] == []))
  }

  /** "Operator done". The command is ignored unless the done gate is open or
      the app is in INIT. From INIT it only asks for the stored instruction
      list. From OPERATOR it stores the manifest, enters USER at instruction
      0 and shows its guidance; the gate closes once that succeeds. */
  function DoneOperator(a: App): (r: Step)
    ensures !(a.allowDone || a.state == Init) ==> r == Ok(a, [])
    ensures a.state == Init ==> r == Ok(a.(allowDone := false), [FetchInstructions(false, a.updateMode)])
    ensures (a.state == UserPrescan || a.state == User) ==> r == Ok(a, [])
    ensures a.state == Operator && a.allowDone ==>
      && r.app.state == User && r.app.current == 0
      && r.app.stored == a.manifest.paths
      && (r.fault.None? <==> |a.instructions| > 0)
      && (r.fault.None? ==> !r.app.allowDone)
    ensures a.state == Operator && a.allowDone ==>
      && r.app == a.(stored := a.manifest.paths, current := 0, state := User,
                     allowDone := r.fault.Some?, visualsMap := r.app.visualsMap)
      && EntersUserAtFirst(a, r)
  {
    if a.allowDone || a.state == Init then
      if a.state == Init then
        Ok(a.(allowDone := false), [FetchInstructions(false, a.updateMode)])
      else if a.state == Operator then
        var b := a.(stored := a.manifest.paths, current := 0, state := User);
        var g := DisplayTaskGuidance(b);
        if g.fault.Some? then Step(g.app, [StateText(StateLabel(User)), ScanImage(false)] + g.effects, g.fault)
        else Ok(g.app.(allowDone := false), [StateText(StateLabel(User)), ScanImage(false)] + g.effects)
      else Ok(a, [])
    else Ok(a, [])
  }

  // ---------------------------------------------------------------------------
  // Scan phase

  /** "Scan done": enters USER at instruction 0 and shows its guidance, when
      the done gate is open in USER_PRESCAN. */
  function DonePrescan(a: App): (r: Step)
    ensures !(a.allowDone && a.state == UserPrescan) ==> r == Ok(a, [])
    ensures a.allowDone && a.state == UserPrescan ==>
      && r.app.state == User && r.app.current == 0 && !r.app.allowDone
      && (r.fault.None? <==> |a.instructions| > 0)
    ensures a.allowDone && a.state == UserPrescan ==>
      && r.app == a.(current := 0, state := User, allowDone := false, visualsMap := r.app.visualsMap)
      && EntersUserAtFirst(a, r)
  {
    if a.allowDone && a.state == UserPrescan then
      var b := a.(current := 0, state := User, allowDone := false);
      var g := DisplayTaskGuidance(b);
      Step(g.app, [StateText(StateLabel(User)), ScanImage(false)] + g.effects, g.fault)
    else Ok(a, [])
  }

  /** Resets the scan indices before the scan phase. Update mode starts at
      the first instruction touched, and skips the scan phase when none
      was; otherwise the scan starts at instruction 0. */
  function PrepareUserScan(a: App): (r: Step)
    ensures |r.effects| > 0 && r.effects[0] == LoadTextures(a.updateMode)
    ensures !a.updateMode ==> r == Ok(a.(current := 0, picture := 0, scanTotal := 0),
                                      [LoadTextures(false), ShowPicture(0, 0, 1), ScanImage(true)])
    ensures a.updateMode && |a.manifest.updated| > 0 ==>
      r == Ok(a.(current := a.manifest.updated[0], picture := 0, scanTotal := 0),
              [LoadTextures(true), ShowPicture(a.manifest.updated[0], 0, 1), ScanImage(true)])
    ensures a.updateMode && |a.manifest.updated| == 0 ==>
      var b := a.(current := 0, picture := 0, scanTotal := 0);
      var d := DonePrescan(b);
      r == Step(d.app, [LoadTextures(true)] + d.effects + (if d.fault.None? then [ScanImage(true)] else []), d.fault)
  {
    var b := a.(current := 0, picture := 0, scanTotal := 0);
    if a.updateMode then
      if |a.manifest.updated| > 0 then
        var c := b.(current := a.manifest.updated[0]);
        Ok(c, [LoadTextures(true), DisplayPicture(c), ScanImage(true)])
      else
        var d := DonePrescan(b);
        if d.fault.Some? then Step(d.app, [LoadTextures(true)] + d.effects, d.fault)
        else Ok(d.app, [LoadTextures(true)] + d.effects + [ScanImage(true)])
    else
      Ok(b, [LoadTextures(false), DisplayPicture(b), ScanImage(true)])
  }

  /** Outside the scan phase the skip branch changes nothing but the indices:
      the done command it issues is ignored. */
  lemma EmptyUpdateSkipOutsideScan(a: App)
    requires a.updateMode && |a.manifest.updated| == 0 && a.state != UserPrescan
    ensures PrepareUserScan(a) == Ok(a.(current := 0, picture := 0, scanTotal := 0), [LoadTextures(true), ScanImage(true)])
  {
  }

  datatype Advance = Advance(app: App, moved: bool)

  /** Finds the next instruction to scan. In update mode that is the
      instruction after the current one in first-touch order, which must
      also have a path list; otherwise it is the next index with a path
      list. Only the index changes, and in update mode it changes even when
      the new instruction has no path list. */
  function GoToNextUpdatedInstruction(a: App): (r: Advance)
    ensures r.app == a.(current := r.app.current)
    ensures r.moved ==> r.app.current < |a.manifest.paths|
    ensures !a.updateMode ==>
      && (r.moved <==> a.current + 1 < |a.manifest.paths|)
      && r.app.current == (if r.moved then a.current + 1 else a.current)
    ensures a.updateMode && a.current !in a.manifest.updated ==> r == Advance(a, false)
    ensures a.updateMode ==> forall k :: 0 <= k < |a.manifest.updated| && a.manifest.updated[k] == a.current && a.current !in a.manifest.updated[..k] ==>
      if k + 1 < |a.manifest.updated| then
        r.app.current == a.manifest.updated[k + 1] && (r.moved <==> a.manifest.updated[k + 1] < |a.manifest.paths|)
      else r == Advance(a, false)
  {
    if a.updateMode then
      var u := a.manifest.updated;
      var idx := IndexOf<int>(u, a.current);
      if idx != -1 && idx + 1 < |u| then
        var b := a.(current := u[idx + 1]);
        Advance(b, b.current < |a.manifest.paths|)
      else Advance(a, false)
    else if a.current + 1 < |a.manifest.paths| then
      Advance(a.(current := a.current + 1), true)
    else Advance(a, false)
  }

  /** Whether a scan command moved to another picture. */
  predicate Advanced(s: Step) {
    |s.effects| == 1 && s.effects[0].ShowPicture?
  }

  /** Moves to the next picture to scan: the next picture of the current
      instruction, else the first picture of the next instruction, else the
      done label. Each move counts one picture. */
  function ScanNextPicture(a: App): (r: Step)
    ensures a.state != UserPrescan ==> r == Ok(a, [])
    ensures a.state == UserPrescan && !(0 <= a.current < |a.manifest.paths|) ==> r == Step(a, [], Some(ArgumentOutOfRange))
    ensures a.state == UserPrescan && 0 <= a.current < |a.manifest.paths| ==>
      && r.fault.None?
      && r.app.scanTotal == a.scanTotal + (if Advanced(r) then 1 else 0)
      && (a.picture + 1 < |a.manifest.paths[a.current]| ==>
            r.app == a.(picture := a.picture + 1, scanTotal := a.scanTotal + 1) && Advanced(r))
      && (a.picture + 1 >= |a.manifest.paths[a.current]| && GoToNextUpdatedInstruction(a).moved ==>
            r.app == GoToNextUpdatedInstruction(a).app.(picture := 0, scanTotal := a.scanTotal + 1) && Advanced(r))
      && (a.picture + 1 >= |a.manifest.paths[a.current]| && !GoToNextUpdatedInstruction(a).moved ==>
            r.app == GoToNextUpdatedInstruction(a).app.(allowDone := true)
            && r.effects == [DoneLabel("scan"), ScanImage(false)])
    ensures Advanced(r) ==> r.effects == [DisplayPicture(r.app)]
  {
    if a.state != UserPrescan then Ok(a, [])
    else if !(0 <= a.current < |a.manifest.paths|) then Step(a, [], Some(ArgumentOutOfRange))
    else if a.picture + 1 >= |a.manifest.paths[a.current]| then
      var adv := GoToNextUpdatedInstruction(a);
      if adv.moved then
        var b := adv.app.(picture := 0, scanTotal := a.scanTotal + 1);
        Ok(b, [DisplayPicture(b)])
      else
        var d := DisplayDoneLabel(adv.app);
        Ok(d.app, d.effects + [ScanImage(false)])
    else
      var b := a.(picture := a.picture + 1, scanTotal := a.scanTotal + 1);
      Ok(b, [DisplayPicture(b)])
  }

  /** Moves back one picture, into the last picture of the previous
      instruction when at picture 0. The index is decremented before the
      previous instruction's list is read, so a missing list throws with the
      index already moved. */
  function ScanPreviousPicture(a: App): (r: Step)
    ensures a.state != UserPrescan ==> r == Ok(a, [])
    ensures a.state == UserPrescan && (a.picture < 0 || (a.current <= 0 && a.picture == 0)) ==> r == Ok(a, [])
    ensures a.state == UserPrescan && a.picture > 0 ==>
      r == Ok(a.(picture := a.picture - 1, scanTotal := a.scanTotal - 1), [DisplayPicture(r.app)])
    ensures a.state == UserPrescan && a.picture == 0 && 0 < a.current <= |a.manifest.paths| ==>
      && r.app == a.(current := a.current - 1, picture := |a.manifest.paths[a.current - 1]| - 1, scanTotal := a.scanTotal - 1)
      && r.effects == [DisplayPicture(r.app)] && r.fault.None?
    ensures a.state == UserPrescan && a.picture == 0 && a.current > |a.manifest.paths| ==>
      r == Step(a.(current := a.current - 1), [], Some(ArgumentOutOfRange))
  {
    if a.state == UserPrescan then
      if a.picture == 0 && a.current > 0 then
        var b := a.(current := a.current - 1);
        if b.current >= |a.manifest.paths| then Step(b, [], Some(ArgumentOutOfRange))
        else
          var c := b.(picture := |a.manifest.paths[b.current]| - 1, scanTotal := a.scanTotal - 1);
          Ok(c, [DisplayPicture(c)])
      else if a.picture > 0 then
        var c := a.(picture := a.picture - 1, scanTotal := a.scanTotal - 1);
        Ok(c, [DisplayPicture(c)])
      else Ok(a, [])
    else Ok(a, [])
  }

  /** A scan position names a picture. */
  predicate ValidScanPosition(a: App) {
    0 <= a.current < |a.manifest.paths| && 0 <= a.picture < |a.manifest.paths[a.current]|
  }

  /** Outside update mode and with no empty picture list, "scan previous"
      undoes a "scan next" that moved. */
  lemma ScanPreviousUndoesScanNext(a: App)
    requires a.state == UserPrescan && !a.updateMode && ValidScanPosition(a)
    requires forall i :: 0 <= i < |a.manifest.paths| ==> |a.manifest.paths[i]| > 0
    requires Advanced(ScanNextPicture(a))
    ensures ScanPreviousPicture(ScanNextPicture(a).app).app == a
  {
    var n := ScanNextPicture(a).app;
    if a.picture + 1 >= |a.manifest.paths[a.current]| {
      assert n.current == a.current + 1 && n.picture == 0;
      assert a.picture == |a.manifest.paths[a.current]| - 1;
    }
  }

  /** Outside update mode, scanning forward keeps the position valid. */
  lemma ScanNextKeepsPosition(a: App)
    requires a.state == UserPrescan && !a.updateMode && ValidScanPosition(a)
    requires forall i :: 0 <= i < |a.manifest.paths| ==> |a.manifest.paths[i]| > 0
    ensures ValidScanPosition(ScanNextPicture(a).app)
  {
  }

  /** "Scan image": takes a photo for object detection. */
  function UserPrescanCommand(a: App): (r: Step)
    ensures r.app == a && r.fault.None?
    ensures r.effects == (if a.state == UserPrescan then [StartDetector] else [])
  {
    if a.state == UserPrescan then Ok(a, [StartDetector]) else Ok(a, [])
  }

  // ---------------------------------------------------------------------------
  // User phase

  /** "Next instruction". */
  function UserNextInstruction(a: App): (r: Step)
    ensures !(a.state == User && a.current < |a.instructions| - 1) ==> r == Ok(a, [])
    ensures a.state == User && a.current < |a.instructions| - 1 ==>
      r == DisplayTaskGuidance(a.(current := a.current + 1))
    ensures InRange(a) ==> InRange(r.app) && r.fault.None?
    ensures r.app.state == a.state && r.app.instructions == a.instructions
  {
    if a.state == User && a.current < |a.instructions| - 1 then
      DisplayTaskGuidance(a.(current := a.current + 1))
    else Ok(a, [])
  }

  /** "Previous instruction". */
  function UserPreviousInstruction(a: App): (r: Step)
    ensures !(a.state == User && a.current > 0) ==> r == Ok(a, [])
    ensures a.state == User && a.current > 0 ==> r == DisplayTaskGuidance(a.(current := a.current - 1))
    ensures InRange(a) ==> InRange(r.app) && r.fault.None?
    ensures r.app.state == a.state && r.app.instructions == a.instructions
  {
    if a.state == User && a.current > 0 then
      DisplayTaskGuidance(a.(current := a.current - 1))
    else Ok(a, [])
  }

  datatype UserCommand = NextInstruction | PreviousInstruction

  /** Runs a sequence of user-phase navigation commands. */
  function RunUserCommands(a: App, cmds: seq<UserCommand>): App
    decreases |cmds|
  {
    if |cmds| == 0 then a
    else
      var s := if cmds[0] == NextInstruction then UserNextInstruction(a) else UserPreviousInstruction(a);
      RunUserCommands(s.app, cmds[1..])
  }

  /** However the user navigates, the index keeps naming an instruction. */
  lemma {:induction false} UserNavigationStaysInRange(a: App, cmds: seq<UserCommand>)
    requires InRange(a)
    ensures InRange(RunUserCommands(a, cmds))
    decreases |cmds|
  {
    if |cmds| > 0 {
      var s := if cmds[0] == NextInstruction then UserNextInstruction(a) else UserPreviousInstruction(a);
      UserNavigationStaysInRange(s.app, cmds[1..]);
    }
  }

  /** Selecting an instruction from the hand menu, in OPERATOR or USER only. */
  function SetInstructionNum(a: App, num: int): (r: Step)
    ensures !(a.state == Operator || a.state == User) ==> r == Ok(a, [])
    ensures a.state == Operator ==> r == DisplayCurrentInstruction(a.(current := num, picture := 0))
    ensures a.state == User ==> r == DisplayTaskGuidance(a.(current := num, picture := 0))
    ensures (a.state == Operator || a.state == User) ==>
      r.app.current == num && r.app.picture == 0 && (r.fault.None? <==> 0 <= num < |a.instructions|)
  {
    if a.state == Operator || a.state == User then
      var b := a.(current := num, picture := 0);
      if a.state == Operator then DisplayCurrentInstruction(b) else DisplayTaskGuidance(b)
    else Ok(a, [])
  }

  /** The take-picture button stands in for "operator image" and "scan image". */
  function TakePictureButton(a: App, processing: bool, testPath: string): (r: Step)
    ensures a.state == Operator ==> r == HandleOperator(a, processing, testPath)
    ensures a.state == UserPrescan ==> r == UserPrescanCommand(a)
    ensures a.state != Operator ==> r.app == a && r.fault.None?
    ensures (a.state == Init || a.state == User) ==> r.effects == []
  {
    if a.state == Operator then HandleOperator(a, processing, testPath)
    else if a.state == UserPrescan then UserPrescanCommand(a)
    else Ok(a, [])
  }

  /** The done button stands in for "operator done" and "scan done". */
  function DoneButton(a: App): (r: Step)
    ensures (a.state == Init || a.state == Operator) ==> r == DoneOperator(a)
    ensures a.state == UserPrescan ==> r == DonePrescan(a)
    ensures a.state == User ==> r == Ok(a, [])
  {
    if a.state == Init || a.state == Operator then DoneOperator(a)
    else if a.state == UserPrescan then DonePrescan(a)
    else Ok(a, [])
  }

  /** Leaving the operator phase and leaving the scan phase show the user
      the same thing: the same screen effects, the same visuals and the same
      outcome, from the same record. */
  lemma DoneCommandsAgree(a: App)
    requires a.state == Operator && a.allowDone
    ensures var o := DoneButton(a);
      var p := DoneButton(a.(state := UserPrescan));
      && o.effects == p.effects && o.fault == p.fault
      && o.app.visualsMap == p.app.visualsMap && o.app.state == p.app.state == User
  {
  }

  /** Once a done command has taken the app into USER, pressing done again
      changes nothing. */
  lemma SecondDoneIgnored(a: App)
    requires a.allowDone && (a.state == Operator || a.state == UserPrescan)
    ensures var r := DoneButton(a);
      r.app.state == User && DoneButton(r.app) == Ok(r.app, [])
  {
  }

  // ---------------------------------------------------------------------------
  // Instruction lists arriving from the server

  /** A new instruction list for the operator: shows the current one, clears
      the picture manifest and the storage file unless updating, and enters
      OPERATOR. */
  function HandleReceivedNewInstructions(a: App): (r: Step)
    ensures !InRange(a) ==> r == Step(a, [], Some(ArgumentOutOfRange))
    ensures InRange(a) ==> r.fault.None? && r.app.state == Operator && r.app.current == a.current
    ensures InRange(a) && a.updateMode ==> r.app == a.(state := Operator)
    ensures InRange(a) && !a.updateMode ==>
      r.app.manifest.paths == [] && r.app.manifest.updated == a.manifest.updated && r.app.stored == []
    ensures InRange(a) && !a.updateMode ==>
      && r.app == a.(state := Operator, manifest := a.manifest.(paths := []), stored := [])
      && DeleteFiles(IC.ClearStorageFile(a.manifest, a.stored, a.inEditor).deleted) in r.effects
  {
    var d := DisplayCurrentInstruction(a);
    if d.fault.Some? then d
    else if a.updateMode then
      var s := ChangeAppState(a, Operator);
      Ok(s.app, d.effects + s.effects)
    else
      var c := IC.ClearStorageFile(a.manifest, a.stored, a.inEditor);
      var s := ChangeAppState(a.(manifest := c.manifest, stored := c.stored), Operator);
      Ok(s.app, d.effects + [DeleteFiles(c.deleted)] + s.effects)
  }

  /** The stored instruction list, for going straight to scanning: reloads
      the manifest from the storage file, prepares the scan and enters
      USER_PRESCAN. */
  function HandleReceivedInstructions(a: App): (r: Step)
    ensures var p := PrepareUserScan(a.(manifest := a.manifest.(paths := a.stored)));
      && (p.fault.Some? ==> r == p)
      && (p.fault.None? ==> r.fault.None? && r.app == p.app.(state := UserPrescan))
    ensures r.app.manifest.paths == a.stored
  {
    var b := a.(manifest := a.manifest.(paths := a.stored));
    var p := PrepareUserScan(b);
    if p.fault.Some? then p
    else
      var s := ChangeAppState(p.app, UserPrescan);
      Ok(s.app, p.effects + s.effects)
  }

  /** The answer to an instruction request: a failure leaves the app as it
      was; a list replaces the instructions and raises the event the request
      asked for. */
  function InstructionsArrive(a: App, operatorChanged: bool, update: bool, response: Option<seq<string>>): (r: Step)
    ensures response.None? ==> r == Ok(a, [])
    ensures response.Some? && operatorChanged ==> r == HandleReceivedNewInstructions(a.(instructions := response.value))
    ensures response.Some? && !operatorChanged ==> r == HandleReceivedInstructions(a.(instructions := response.value))
  {
    var f := IC.ReceiveInstructions(a.instructions, operatorChanged, update, response);
    var b := a.(instructions := f.instructions);
    if f.event.None? then Ok(b, [])
    else if f.event.value == IC.NewInstructionsReceived then HandleReceivedNewInstructions(b)
    else HandleReceivedInstructions(b)
  }

  /** Starting an update round from USER and receiving a non-empty list
      enters OPERATOR at instruction 1, keeps every picture path and has
      touched no instruction yet. */
  lemma UpdateRoundKeepsPictures(a: App, instructions: seq<string>)
    requires a.state == User && |instructions| > 0
    ensures var c := ConfirmStartInstructions(a).app;
      var r := InstructionsArrive(c, true, c.updateMode, Some(instructions));
      && r.fault.None? && r.app.state == Operator && r.app.current == 0
      && r.app.manifest.paths == a.manifest.paths && r.app.manifest.updated == []
      && r.effects[0] == InstructionText(1, instructions[0])
  {
  }

  /** Starting operator mode from INIT outside update mode and receiving a
      non-empty list clears every stored picture path. */
  lemma FreshRoundClearsPictures(a: App, instructions: seq<string>)
    requires a.state == Init && !a.updateMode && |instructions| > 0
    ensures var c := ConfirmStartInstructions(a).app;
      var r := InstructionsArrive(c, true, c.updateMode, Some(instructions));
      && r.fault.None? && r.app.state == Operator && r.app.current == 0
      && r.app.manifest.paths == [] && r.app.stored == []
  {
  }
}

=== FILE: common.dfy ===
/** Small shared vocabulary: optional values, the runtime faults the C# side can
    raise, and list flattening. */
module Common {

  /** A value that may be missing: a C# null reference or a Python None. */
  datatype Option<+T> = None | Some(value: T)

  /** Exceptions the C# handlers can raise at run time. In Unity an exception
      thrown inside an event handler or coroutine ends that handler and is
      logged; assignments made before the throw stay in effect. */
  datatype Fault =
    | IndexOutOfRange      // List<T> or array index outside the collection
    | NullReference        // member access on a null object
    | FileNotFound         // System.IO.FileNotFoundException
    | ArgumentOutOfRange   // System.ArgumentOutOfRangeException

  /** Exceptions the Python detection server raises or lets escape. */
  datatype PyError =
    | DetectionException   // the server's own exception type
    | KeyError             // a missing JSON field
    | IndexError           // indexing an empty list
    | ValueError           // `min`/`max` of an empty sequence
    | AssertionError       // a failed `assert`

  /** A Python call: its return value, or the exception it raised. */
  datatype Outcome<+T> = Ok(value: T) | Raised(error: PyError)

  /** C#'s `List.IndexOf` and Python's `str.find`: position of the first `x`
      in `s`, or -1. */
  function IndexOf<T(==)>(s: seq<T>, x: T): (r: int)
    ensures -1 <= r < |s|
    ensures r == -1 <==> x !in s
    ensures r >= 0 ==> s[r] == x && x !in s[..r]
    decreases |s|
  {
    if |s| == 0 then -1
    else if s[0] == x then 0
    else
      var k := IndexOf(s[1..], x);
      assert x in s <==> x in s[1..] by {
        assert s == [s[0]] + s[1..];
      }
      assert k >= 0 ==> s[..k + 1] == [s[0]] + s[1..][..k];
      if k == -1 then -1 else k + 1
  }

  /** Python's `str.rfind`: position of the last `x` in `s`, or -1. */
  function LastIndexOf<T(==)>(s: seq<T>, x: T): (r: int)
    ensures -1 <= r < |s|
    ensures r == -1 <==> x !in s
    ensures r >= 0 ==> s[r] == x && x !in s[r + 1..]
    decreases |s|
  {
    if |s| == 0 then -1
    else if s[|s| - 1] == x then |s| - 1
    else
      var k := LastIndexOf(s[..|s| - 1], x);
      assert x in s <==> x in s[..|s| - 1] by {
        assert s == s[..|s| - 1] + [s[|s| - 1]];
      }
      assert k >= 0 ==> s[k + 1..] == s[..|s| - 1][k + 1..] + [s[|s| - 1]];
      k
  }

  /** No element occurs twice. */
  predicate NoDuplicates<T(==)>(s: seq<T>) {
    forall i, j :: 0 <= i < j < |s| ==> s[i] != s[j]
  }

  /** `xss` extended with empty lists up to length `n`; the C# idiom
      "add `new List()` until index `n - 1` exists". */
  function PadTo<T>(xss: seq<seq<T>>, n: nat): (r: seq<seq<T>>)
    ensures |r| == if |xss| >= n then |xss| else n
    ensures forall i :: 0 <= i < |xss| ==> r[i] == xss[i]
    ensures forall i :: |xss| <= i < |r| ==> r[i] == []
  {
    if |xss| >= n then xss else xss + seq(n - |xss|, _ => [])
  }

  /** Concatenation of all inner lists, in order. */
  function Flatten<T>(xss: seq<seq<T>>): (r: seq<T>)
    ensures |xss| == 0 ==> r == []
  {
    if |xss| == 0 then [] else xss[0] + Flatten(xss[1..])
  }

  /** Every element of every inner list occurs in the flattening. */
  lemma {:induction false} FlattenContains<T>(xss: seq<seq<T>>, i: nat, j: nat)
    requires i < |xss| && j < |xss[i]|
    ensures xss[i][j] in Flatten(xss)
    decreases i
  {
    if i == 0 {
      assert Flatten(xss) == xss[0] + Flatten(xss[1..]);
      assert Flatten(xss)[j] == xss[0][j];
    } else {
      FlattenContains(xss[1..], i - 1, j);
      assert xss[1..][i - 1] == xss[i];
    }
  }

  /** Every element of the flattening comes from some inner list. */
  lemma {:induction false} FlattenOnlyContains<T>(xss: seq<seq<T>>, x: T)
    requires x in Flatten(xss)
    ensures exists i, j :: 0 <= i < |xss| && 0 <= j < |xss[i]| && xss[i][j] == x
    decreases |xss|
  {
    if x in xss[0] {
      var j :| 0 <= j < |xss[0]| && xss[0][j] == x;
      assert xss[0][j] == x;
    } else {
      assert x in Flatten(xss[1..]);
      FlattenOnlyContains(xss[1..], x);
      var i, j :| 0 <= i < |xss[1..]| && 0 <= j < |xss[1..][i]| && xss[1..][i][j] == x;
      assert xss[i + 1][j] == x;
    }
  }
}

=== FILE: geometry.dfy ===
/** Unity's Vector2 and Vector3, over the reals instead of 32-bit floats. */
module Geometry {

  datatype Vec2 = Vec2(x: real, y: real)

  datatype Vec3 = Vec3(x: real, y: real, z: real)

  /** Unity's Vector3.up. */
  const Up: Vec3 := Vec3(0.0, 1.0, 0.0)

  function Add(a: Vec3, b: Vec3): Vec3 {
    Vec3(a.x + b.x, a.y + b.y, a.z + b.z)
  }

  function Sub(a: Vec3, b: Vec3): Vec3 {
    Vec3(a.x - b.x, a.y - b.y, a.z - b.z)
  }

  function Scale(v: Vec3, k: real): Vec3 {
    Vec3(v.x * k, v.y * k, v.z * k)
  }

  function Dot(a: Vec3, b: Vec3): real {
    a.x * b.x + a.y * b.y + a.z * b.z
  }

  /** Squared Euclidean length. */
  function NormSq(v: Vec3): real {
    Dot(v, v)
  }
}

=== FILE: instruction_controller.dfy ===
/** Bookkeeping of the operator's pictures: the per-instruction image-path
    manifest, the set of instructions touched in update mode, instruction
    fetching and the checks made before a picture is posted. */
module InstructionController {

  import opened Common

  /** `instructionImagePaths` (one list of picture files per instruction)
      together with `AppController.updatedInstructions` (instructions whose
      pictures were retaken in update mode, in order of first retake). */
  datatype Manifest = Manifest(paths: seq<seq<string>>, updated: seq<nat>)

  /** Pictures an instruction had before an add: none if its list did not
      exist yet. */
  function PicturesOf(m: Manifest, n: nat): seq<string> {
    if n < |m.paths| then m.paths[n] else []
  }

  /** Records a new picture `filePath` for instruction `n`. The list of lists
      grows with empty lists until index `n` exists. In update mode the first
      picture for an instruction replaces its old list and marks it updated;
      otherwise the picture is appended. No other instruction changes. */
  function AddImagePath(m: Manifest, n: nat, filePath: string, update: bool): (r: Manifest)
    ensures |r.paths| == if |m.paths| > n then |m.paths| else n + 1
    ensures forall i :: 0 <= i < |r.paths| && i != n ==> r.paths[i] == PicturesOf(m, i)
    ensures update && n !in m.updated ==> r.paths[n] == [filePath] && r.updated == m.updated + [n]
    ensures !(update && n !in m.updated) ==> r.paths[n] == PicturesOf(m, n) + [filePath] && r.updated == m.updated
  {
    var padded := PadTo(m.paths, n + 1);
    if update && n !in m.updated then
      Manifest(padded[n := [filePath]], m.updated + [n])
    else
      Manifest(padded[n := padded[n] + [filePath]], m.updated)
  }

  /** The manifest invariant: no instruction is recorded as updated twice,
      and every updated instruction has a list. */
  predicate Consistent(m: Manifest) {
    NoDuplicates(m.updated) && forall k :: 0 <= k < |m.updated| ==> m.updated[k] < |m.paths|
  }

  lemma AddImagePathKeepsConsistent(m: Manifest, n: nat, filePath: string, update: bool)
    requires Consistent(m)
    ensures Consistent(AddImagePath(m, n, filePath, update))
  {
  }

  /** One picture taken: the instruction it belongs to and its file. */
  datatype Shot = Shot(instruction: nat, file: string)

  /** A sequence of `AddImagePath` calls, in order. */
  function AddAll(m: Manifest, shots: seq<Shot>, update: bool): Manifest
    decreases |shots|
  {
    if |shots| == 0 then m
    else AddAll(AddImagePath(m, shots[0].instruction, shots[0].file, update), shots[1..], update)
  }

  /** `acc` followed by the elements of `ns` not seen before, in order of
      first occurrence. */
  function AppendNew(acc: seq<nat>, ns: seq<nat>): seq<nat>
    decreases |ns|
  {
    if |ns| == 0 then acc
    else AppendNew(if ns[0] in acc then acc else acc + [ns[0]], ns[1..])
  }

  function Instructions(shots: seq<Shot>): seq<nat> {
    seq(|shots|, k requires 0 <= k < |shots| => shots[k].instruction)
  }

  /** In update mode the updated list grows by exactly the instructions
      pictured, each once, in the order they were first pictured. */
  lemma {:induction false} UpdatedInFirstTouchOrder(m: Manifest, shots: seq<Shot>)
    ensures AddAll(m, shots, true).updated == AppendNew(m.updated, Instructions(shots))
    decreases |shots|
  {
    if |shots| > 0 {
      var m1 := AddImagePath(m, shots[0].instruction, shots[0].file, true);
      UpdatedInFirstTouchOrder(m1, shots[1..]);
      assert Instructions(shots)[1..] == Instructions(shots[1..]);
    }
  }

  /** An instruction that no shot pictures keeps its pictures. */
  lemma {:induction false} UntouchedInstructionsKept(m: Manifest, shots: seq<Shot>, update: bool, i: nat)
    requires i < |m.paths|
    requires forall k :: 0 <= k < |shots| ==> shots[k].instruction != i
    ensures i < |AddAll(m, shots, update).paths|
    ensures AddAll(m, shots, update).paths[i] == m.paths[i]
    decreases |shots|
  {
    if |shots| > 0 {
      var m1 := AddImagePath(m, shots[0].instruction, shots[0].file, update);
      UntouchedInstructionsKept(m1, shots[1..], update, i);
    }
  }

  /** Clearing the storage file for a new instruction set: every file listed
      in the stored manifest is deleted (not when running in the editor), the
      file is emptied and the in-memory picture lists are dropped. The
      updated list is left alone. */
  datatype Cleared = Cleared(manifest: Manifest, stored: seq<seq<string>>, deleted: seq<string>)

  function ClearStorageFile(m: Manifest, stored: seq<seq<string>>, inEditor: bool): (r: Cleared)
    ensures r.manifest.paths == [] && r.manifest.updated == m.updated
    ensures r.stored == []
    ensures inEditor ==> r.deleted == []
    ensures !inEditor ==> forall i, j :: 0 <= i < |stored| && 0 <= j < |stored[i]| ==> stored[i][j] in r.deleted
    ensures forall f :: f in r.deleted ==> exists i, j :: 0 <= i < |stored| && 0 <= j < |stored[i]| && stored[i][j] == f
  {
    var deleted := if inEditor then [] else Flatten(stored);
    forall i, j | 0 <= i < |stored| && 0 <= j < |stored[i]| && !inEditor
      ensures stored[i][j] in deleted
    {
      FlattenContains(stored, i, j);
    }
    forall f | f in deleted
      ensures exists i, j :: 0 <= i < |stored| && 0 <= j < |stored[i]| && stored[i][j] == f
    {
      FlattenOnlyContains(stored, f);
    }
    Cleared(m.(paths := []), [], deleted)
  }

  // ---------------------------------------------------------------------------
  // Fetching instructions

  datatype Endpoint = GetInstructions | NewInstructions | UpdateInstructions

  /** The serialized endpoint names. */
  function EndpointName(e: Endpoint): string {
    match e
    case GetInstructions => "get_instructions"
    case NewInstructions => "new_instructions"
    case UpdateInstructions => "update_instructions"
  }

  /** Which list of instructions to ask the server for. */
  function SelectEndpoint(operatorChanged: bool, update: bool): (e: Endpoint)
    ensures e == UpdateInstructions <==> update
    ensures e == NewInstructions <==> !update && operatorChanged
    ensures e == GetInstructions <==> !update && !operatorChanged
  {
    if update then UpdateInstructions
    else if operatorChanged then NewInstructions else GetInstructions
  }

  /** The event raised once an instruction list arrives. */
  datatype InstructionsEvent = InstructionsReceived | NewInstructionsReceived

  datatype Fetched = Fetched(endpoint: Endpoint, instructions: seq<string>, event: Option<InstructionsEvent>)

  /** The GET round trip: `response` is None on a transport failure, else
      the decoded list. On failure the instructions stay as they were and no
      event fires; on success they are replaced and exactly one event fires,
      chosen by `operatorChanged` alone. */
  function ReceiveInstructions(instructions: seq<string>, operatorChanged: bool, update: bool,
                               response: Option<seq<string>>): (r: Fetched)
    ensures r.endpoint == SelectEndpoint(operatorChanged, update)
    ensures response.None? ==> r.instructions == instructions && r.event.None?
    ensures response.Some? ==> r.instructions == response.value
    ensures response.Some? && operatorChanged ==> r.event == Some(NewInstructionsReceived)
    ensures response.Some? && !operatorChanged ==> r.event == Some(InstructionsReceived)
  {
    var endpoint := SelectEndpoint(operatorChanged, update);
    match response
    case None => Fetched(endpoint, instructions, None)
    case Some(list) =>
      Fetched(endpoint, list, Some(if operatorChanged then NewInstructionsReceived else InstructionsReceived))
  }

  // ---------------------------------------------------------------------------
  // Posting a picture

  /** The checks made before a picture is posted: the file must exist, and
      the instruction index may not exceed the number of instructions (an
      index equal to the count passes). Also used by the object detector. */
  function CheckPictureUpload(fileExists: bool, currInstruction: int, instructionCount: nat): (r: Option<Fault>)
    ensures r == Some(FileNotFound) <==> !fileExists
    ensures r == Some(ArgumentOutOfRange) <==> fileExists && currInstruction > instructionCount
    ensures r.None? <==> fileExists && currInstruction <= instructionCount
  {
    if !fileExists then Some(FileNotFound)
    else if currInstruction > instructionCount then Some(ArgumentOutOfRange)
    else None
  }

  datatype ParserPost = Rejected(fault: Fault) | Posted(instructionNum: int, parsed: bool)

  /** Sending a picture to the instruction parser: rejected before any
      request when a check fails, otherwise posted with the index;
      `succeeded` is the transport outcome, which is only logged. */
  function SendPictureToParser(fileExists: bool, currInstruction: int, instructionCount: nat, succeeded: bool): (r: ParserPost)
    ensures r.Rejected? <==> !fileExists || currInstruction > instructionCount
    ensures r.Rejected? && !fileExists ==> r.fault == FileNotFound
    ensures r.Posted? ==> r.instructionNum == currInstruction && r.parsed == succeeded
    ensures fileExists && currInstruction == instructionCount ==> r.Posted?
  {
    match CheckPictureUpload(fileExists, currInstruction, instructionCount)
    case Some(f) => Rejected(f)
    case None => Posted(currInstruction, succeeded)
  }
}

=== FILE: instruction_parser.dfy ===
/** The string handling around the instruction parser: the list of actions
    offered in the prompt, the whitespace clean-up of the prompt, and cutting
    the JSON object out of the parser's free-text answer. */
module InstructionParser {

  import opened Common
  import opened Text
  import ObjectDetector
  import VisualController

  /** The actions the parser may choose from. */
  const PossibleActions: seq<string> := ["press", "twist"]

  /** The actions as they appear in the prompt, separated by ", ". */
  function ActionString(): (r: string)
    ensures r == "press, twist"
  {
    Join(", ", PossibleActions)
  }

  /** Every action the parser may choose is one the headset draws a hand
      for. */
  lemma OfferedActionsHaveHands(i: nat)
    requires i < |PossibleActions|
    ensures ObjectDetector.GetHandVisual(PossibleActions[i]) != VisualController.Error
    ensures ObjectDetector.GetHandVisual(PossibleActions[i]) != VisualController.Pickup
  {
    var a := PossibleActions[i];
    assert ToLower(a) == a;
  }

  /** `re.sub(r"\s+", " ", prompt)`: every run of whitespace becomes one
      space, and nothing else changes. */
  function CollapseWhitespace(prompt: string): (r: string)
    ensures forall i :: 0 <= i < |r| && IsSpace(r[i]) ==> r[i] == ' '
    ensures forall i :: 0 <= i < |r| - 1 ==> !(IsSpace(r[i]) && IsSpace(r[i + 1]))
    ensures Visible(r) == Visible(prompt)
    ensures |r| == 0 <==> |prompt| == 0
    ensures r == CollapseByCharacter(prompt, false)
  {
    CollapseKeepsVisible(prompt);
    CollapseIsCharacterwise(prompt);
    CollapseSpaces(prompt)
  }

  /** Collapsing twice is collapsing once. */
  lemma CollapseWhitespaceIdempotent(prompt: string)
    ensures CollapseWhitespace(CollapseWhitespace(prompt)) == CollapseWhitespace(prompt)
  {
    CollapseIdempotent(prompt);
  }

  /** `output[output.find("{") : output.rfind("}") + 1]`. */
  function ExtractJson(output: string): string {
    PySlice(output, Find(output, '{'), RFind(output, '}') + 1)
  }

  /** With a '{' before the last '}', the slice runs from the first '{' up
      to and including the last '}'. */
  lemma ExtractJsonBetweenBraces(output: string)
    requires '{' in output && '}' in output && Find(output, '{') < RFind(output, '}')
    ensures var s, e := Find(output, '{'), RFind(output, '}');
      && ExtractJson(output) == output[s..e + 1]
      && ExtractJson(output)[0] == '{' && ExtractJson(output)[e - s] == '}'
      && '{' !in output[..s] && '}' !in output[e + 1..]
  {
  }

  /** With no '}' the end bound is 0 and nothing is extracted. */
  lemma ExtractJsonWithoutClosingBrace(output: string)
    requires '}' !in output
    ensures ExtractJson(output) == []
  {
  }

  /** With no '{' the start bound is -1, which Python reads as the last
      position: the slice is the final "}" when the text ends in one, and
      empty otherwise. */
  lemma ExtractJsonWithoutOpeningBrace(output: string)
    requires '{' !in output
    ensures |output| > 0 && output[|output| - 1] == '}' ==> ExtractJson(output) == "}"
    ensures !(|output| > 0 && output[|output| - 1] == '}') ==> ExtractJson(output) == []
  {
    if |output| > 0 && output[|output| - 1] == '}' {
      assert RFind(output, '}') == |output| - 1;
    } else if '}' in output {
      var k := RFind(output, '}');
      assert k < |output| - 1;
    }
  }
}

=== FILE: object_detection.dfy ===
/** The detection server's box selection: among the boxes the detector
    returns, drop every box that has another box's centre inside it, then
    take the most confident survivor; and the two-pass detection that first
    crops the image to the region covering all first-pass boxes. */
module ObjectDetection {

  import opened Common
  import opened Geometry

  /** A box as the detector reports it: centre and size. */
  datatype Box = Box(x: real, y: real, w: real, h: real)

  /** One detector result: the normalised box, the box in image pixels, the
      confidence and the matched phrase. */
  datatype Detection = Detection(unscaled: Box, box: Box, confidence: real, phrase: string)

  /** The centre of `inner` lies strictly inside `outer`. */
  predicate CentreInside(outer: Box, inner: Box) {
    && outer.x - outer.w / 2.0 < inner.x < outer.x + outer.w / 2.0
    && outer.y - outer.h / 2.0 < inner.y < outer.y + outer.h / 2.0
  }

  /** Whether `box` contains the centre of any of `others`, scanning in
      order and stopping at the first. */
  function CheckContainsBox(box: Box, others: seq<Detection>): (r: bool)
    ensures r <==> exists k :: 0 <= k < |others| && CentreInside(box, others[k].box)
    decreases |others|
  {
    if |others| == 0 then false
    else if CentreInside(box, others[0].box) then true
    else
      var r := CheckContainsBox(box, others[1..]);
      assert r ==> exists k :: 0 <= k < |others| && CentreInside(box, others[k].box) by {
        if r {
          var k :| 0 <= k < |others[1..]| && CentreInside(box, others[1..][k].box);
          assert others[k + 1] == others[1..][k];
        }
      }
      r
  }

  // ---------------------------------------------------------------------------
  // Sorting by confidence

  predicate SortedByConfidence(s: seq<Detection>) {
    forall i, j :: 0 <= i < j < |s| ==> s[i].confidence <= s[j].confidence
  }

  /** Inserts `d` after every element at most as confident, which keeps
      equal-confidence elements in arrival order. */
  function Insert(d: Detection, s: seq<Detection>): (r: seq<Detection>)
    requires SortedByConfidence(s)
    ensures SortedByConfidence(r)
    ensures multiset(r) == multiset(s) + multiset{d}
    decreases |s|
  {
    if |s| == 0 then [d]
    else if d.confidence < s[0].confidence then [d] + s
    else
      var rest := Insert(d, s[1..]);
      assert s == [s[0]] + s[1..];
      InsertedAfterHead(d, s, rest);
      [s[0]] + rest
  }

  /** When `d` goes after the head of `s`, the head is at most as confident
      as anything the rest becomes. */
  lemma InsertedAfterHead(d: Detection, s: seq<Detection>, rest: seq<Detection>)
    requires |s| > 0 && SortedByConfidence(s) && s[0].confidence <= d.confidence
    requires SortedByConfidence(rest) && multiset(rest) == multiset(s[1..]) + multiset{d}
    ensures SortedByConfidence([s[0]] + rest)
  {
    forall k | 0 <= k < |rest| ensures s[0].confidence <= rest[k].confidence {
      assert rest[k] in multiset(rest);
      if rest[k] != d {
        assert rest[k] in multiset(s[1..]);
        var j :| 0 <= j < |s[1..]| && s[1..][j] == rest[k];
        assert s[j + 1] == rest[k];
      }
    }
    var r := [s[0]] + rest;
    forall i, j | 0 <= i < j < |r| ensures r[i].confidence <= r[j].confidence {
      assert r[j] == rest[j - 1];
      if i > 0 {
        assert r[i] == rest[i - 1];
      }
    }
  }

  /** Python's stable `list.sort(key=confidence)`: ascending confidence, a
      permutation of the input. */
  function SortByConfidence(s: seq<Detection>): (r: seq<Detection>)
    ensures SortedByConfidence(r)
    ensures multiset(r) == multiset(s)
    decreases |s|
  {
    if |s| == 0 then []
    else
      assert s == s[..|s| - 1] + [s[|s| - 1]];
      Insert(s[|s| - 1], SortByConfidence(s[..|s| - 1]))
  }

  // ---------------------------------------------------------------------------
  // Discarding boxes that contain another box's centre

  /** The filter, examining `rest` in order: a candidate is dropped iff it
      contains the centre of some candidate still present when it is
      examined, that is, of a kept one or of one not yet examined. */
  function KeepUncontaining(kept: seq<Detection>, rest: seq<Detection>): seq<Detection>
    decreases |rest|
  {
    if |rest| == 0 then kept
    else if CheckContainsBox(rest[0].box, kept + rest[1..]) then KeepUncontaining(kept, rest[1..])
    else KeepUncontaining(kept + [rest[0]], rest[1..])
  }

  /** One step of the filter, at position `i` of `results`. */
  lemma KeepUncontainingStep(prefix: seq<Detection>, results: seq<Detection>, i: nat)
    requires i < |results|
    ensures KeepUncontaining(prefix, results[i..]) ==
      if CheckContainsBox(results[i].box, prefix + results[i + 1..])
      then KeepUncontaining(prefix, results[i + 1..])
      else KeepUncontaining(prefix + [results[i]], results[i + 1..])
  {
    assert results[i..][0] == results[i];
    assert results[i..][1..] == results[i + 1..];
  }

  /** The cursor loop of the server: `kept` shrinks in place, and the cursor
      moves only past a box that is kept. */
  method DiscardContainingBoxes(results: seq<Detection>) returns (kept: seq<Detection>)
    ensures kept == KeepUncontaining([], results)
  {
    kept := results;
    var allBoxes := seq(|results|, k requires 0 <= k < |results| => results[k].box);
    var cursor := 0;
    ghost var prefix: seq<Detection> := [];
    var i := 0;
    while i < |allBoxes|
      invariant 0 <= i <= |results|
      invariant cursor == |prefix| && kept == prefix + results[i..]
      invariant KeepUncontaining(prefix, results[i..]) == KeepUncontaining([], results)
    {
      CursorSplit(prefix, results, i);
      var others := kept[..cursor] + kept[cursor + 1..];
      KeepUncontainingStep(prefix, results, i);
      if CheckContainsBox(allBoxes[i], others) {
        kept := kept[..cursor] + kept[cursor + 1..];
      } else {
        prefix := prefix + [results[i]];
        cursor := cursor + 1;
      }
      i := i + 1;
    }
  }

  /** The list under the cursor, split at the cursor. */
  lemma CursorSplit(prefix: seq<Detection>, results: seq<Detection>, i: nat)
    requires i < |results|
    ensures var kept := prefix + results[i..];
      && kept[|prefix|] == results[i]
      && kept[..|prefix|] + kept[|prefix| + 1..] == prefix + results[i + 1..]
      && kept == (prefix + [results[i]]) + results[i + 1..]
  {
    var kept := prefix + results[i..];
    assert kept[..|prefix|] == prefix;
    assert kept[|prefix| + 1..] == results[i + 1..];
  }

  /** Something survives whenever there was something to filter: the last
      candidate examined with nothing kept has no other box to contain. */
  lemma {:induction false} KeepUncontainingNonEmpty(kept: seq<Detection>, rest: seq<Detection>)
    requires |kept| + |rest| > 0
    ensures |KeepUncontaining(kept, rest)| > 0
    decreases |rest|
  {
    if |rest| > 0 {
      if |kept| == 0 && |rest| == 1 {
        assert kept + rest[1..] == [];
      } else if CheckContainsBox(rest[0].box, kept + rest[1..]) {
        KeepUncontainingNonEmpty(kept, rest[1..]);
      } else {
        KeepUncontainingNonEmpty(kept + [rest[0]], rest[1..]);
      }
    }
  }

  /** The filter keeps what was kept and adds only candidates. */
  lemma {:induction false} KeepUncontainingSelects(kept: seq<Detection>, rest: seq<Detection>)
    ensures var r := KeepUncontaining(kept, rest);
      |r| >= |kept| && r[..|kept|] == kept && forall d :: d in r ==> d in kept || d in rest
    decreases |rest|
  {
    if |rest| > 0 {
      var k := if CheckContainsBox(rest[0].box, kept + rest[1..]) then kept else kept + [rest[0]];
      KeepUncontainingSelects(k, rest[1..]);
      assert KeepUncontaining(kept, rest) == KeepUncontaining(k, rest[1..]);
      assert forall d :: d in rest[1..] ==> d in rest;
    }
  }

  /** No kept box contains the centre of another kept box or of a box still
      to be examined. */
  predicate ContainmentFree(kept: seq<Detection>, rest: seq<Detection>) {
    && (forall i, j :: 0 <= i < |kept| && 0 <= j < |kept| && i != j ==> !CentreInside(kept[i].box, kept[j].box))
    && (forall i, j :: 0 <= i < |kept| && 0 <= j < |rest| ==> !CentreInside(kept[i].box, rest[j].box))
  }

  /** The survivors are pairwise containment-free. */
  lemma {:induction false} KeptBoxesContainNoKeptCentre(kept: seq<Detection>, rest: seq<Detection>)
    requires ContainmentFree(kept, rest)
    ensures ContainmentFree(KeepUncontaining(kept, rest), [])
    decreases |rest|
  {
    if |rest| > 0 {
      var others := kept + rest[1..];
      if CheckContainsBox(rest[0].box, others) {
        assert forall j :: 0 <= j < |rest[1..]| ==> rest[1..][j] == rest[j + 1];
        KeptBoxesContainNoKeptCentre(kept, rest[1..]);
      } else {
        var k' := kept + [rest[0]];
        forall i, j | 0 <= i < |k'| && 0 <= j < |k'| && i != j
          ensures !CentreInside(k'[i].box, k'[j].box)
        {
          if i == |kept| {
            assert others[j] == kept[j];
          } else if j == |kept| {
            assert k'[j] == rest[0];
          }
        }
        forall i, j | 0 <= i < |k'| && 0 <= j < |rest[1..]|
          ensures !CentreInside(k'[i].box, rest[1..][j].box)
        {
          if i == |kept| {
            assert others[|kept| + j] == rest[1..][j];
          } else {
            assert rest[1..][j] == rest[j + 1];
          }
        }
        KeptBoxesContainNoKeptCentre(k', rest[1..]);
      }
    }
  }

  // ---------------------------------------------------------------------------
  // Choosing the best box

  /** Python's `max(s, key=confidence)`: the first element of maximal
      confidence. */
  function MaxIndex(s: seq<Detection>): (k: nat)
    requires |s| > 0
    ensures k < |s|
    ensures forall j :: 0 <= j < |s| ==> s[j].confidence <= s[k].confidence
    ensures forall j :: 0 <= j < k ==> s[j].confidence < s[k].confidence
    decreases |s|
  {
    if |s| == 1 then 0
    else
      var k := MaxIndex(s[..|s| - 1]);
      assert forall j :: 0 <= j < |s| - 1 ==> s[..|s| - 1][j] == s[j];
      if s[|s| - 1].confidence > s[k].confidence then |s| - 1 else k
  }

  /** The survivors of the filter, examined in ascending confidence. */
  function Survivors(output: seq<Detection>): seq<Detection> {
    KeepUncontaining([], SortByConfidence(output))
  }

  /** The best box: the most confident survivor of the filter, first among
      equals in ascending-confidence order. No boxes at all fail the
      server's assertion. */
  function DetermineBestBox(output: seq<Detection>): (r: Outcome<Detection>)
    ensures r.Raised? <==> |output| == 0
    ensures r.Raised? ==> r.error == AssertionError
    ensures r.Ok? ==> r.value in output && r.value in Survivors(output)
    ensures r.Ok? ==> forall d :: d in Survivors(output) ==> d.confidence <= r.value.confidence
    ensures r.Ok? ==> var s := Survivors(output);
      exists k :: 0 <= k < |s| && s[k] == r.value && forall j :: 0 <= j < k ==> s[j].confidence < s[k].confidence
  {
    var sorted := SortByConfidence(output);
    var kept := KeepUncontaining([], sorted);
    KeepUncontainingSelects([], sorted);
    if |kept| == 0 then
      assert |output| == 0 by {
        if |output| > 0 {
          assert |sorted| == |multiset(sorted)| == |multiset(output)| == |output|;
          KeepUncontainingNonEmpty([], sorted);
        }
      }
      Raised(AssertionError)
    else
      var k := MaxIndex(kept);
      assert kept[k] in sorted;
      assert kept[k] in multiset(sorted);
      Ok(kept[k])
  }

  /** The chosen box contains the centre of no other survivor. */
  lemma BestBoxContainsNoSurvivor(output: seq<Detection>)
    requires |output| > 0
    ensures var s := Survivors(output);
      forall j :: 0 <= j < |s| && s[j] != DetermineBestBox(output).value ==>
        !CentreInside(DetermineBestBox(output).value.box, s[j].box)
  {
    var s := Survivors(output);
    KeptBoxesContainNoKeptCentre([], SortByConfidence(output));
    var best := DetermineBestBox(output).value;
    var i :| 0 <= i < |s| && s[i] == best;
  }

  // ---------------------------------------------------------------------------
  // The region covering all boxes

  /** A region by its top-left and bottom-right corners. */
  datatype Region = Region(left: real, top: real, right: real, bottom: real)

  /** Python's `min` over a non-empty sequence. */
  function MinOf(s: seq<real>): (m: real)
    requires |s| > 0
    ensures exists k :: 0 <= k < |s| && s[k] == m
    ensures forall k :: 0 <= k < |s| ==> m <= s[k]
    decreases |s|
  {
    if |s| == 1 then s[0]
    else
      var m := MinOf(s[1..]);
      assert forall k :: 1 <= k < |s| ==> s[1..][k - 1] == s[k];
      if s[0] <= m then s[0] else m
  }

  /** Python's `max` over a non-empty sequence. */
  function MaxOf(s: seq<real>): (m: real)
    requires |s| > 0
    ensures exists k :: 0 <= k < |s| && s[k] == m
    ensures forall k :: 0 <= k < |s| ==> s[k] <= m
    decreases |s|
  {
    if |s| == 1 then s[0]
    else
      var m := MaxOf(s[1..]);
      assert forall k :: 1 <= k < |s| ==> s[1..][k - 1] == s[k];
      if s[0] >= m then s[0] else m
  }

  function Left(b: Box): real { b.x - b.w / 2.0 }
  function Top(b: Box): real { b.y - b.h / 2.0 }
  function Right(b: Box): real { b.x + b.w / 2.0 }
  function Bottom(b: Box): real { b.y + b.h / 2.0 }

  /** One edge of every box, in order. */
  function Column(boxes: seq<Box>, edge: Box -> real): (c: seq<real>)
    ensures |c| == |boxes|
    ensures forall k :: 0 <= k < |boxes| ==> c[k] == edge(boxes[k])
  {
    seq(|boxes|, k requires 0 <= k < |boxes| => edge(boxes[k]))
  }

  /** The smallest region holding every box's top-left and bottom-right
      corner; `min` of no boxes raises. */
  function RegionContainingAllBoxes(boxes: seq<Box>): (r: Outcome<Region>)
    ensures r.Raised? <==> |boxes| == 0
    ensures r.Raised? ==> r.error == ValueError
    ensures r.Ok? ==> forall k :: 0 <= k < |boxes| ==>
      && r.value.left <= Left(boxes[k]) && r.value.top <= Top(boxes[k])
      && Right(boxes[k]) <= r.value.right && Bottom(boxes[k]) <= r.value.bottom
    ensures r.Ok? ==>
      && (exists k :: 0 <= k < |boxes| && r.value.left == Left(boxes[k]))
      && (exists k :: 0 <= k < |boxes| && r.value.top == Top(boxes[k]))
      && (exists k :: 0 <= k < |boxes| && r.value.right == Right(boxes[k]))
      && (exists k :: 0 <= k < |boxes| && r.value.bottom == Bottom(boxes[k]))
  {
    if |boxes| == 0 then Raised(ValueError)
    else
      var lefts, tops := Column(boxes, Left), Column(boxes, Top);
      var rights, bottoms := Column(boxes, Right), Column(boxes, Bottom);
      Ok(Region(MinOf(lefts), MinOf(tops), MaxOf(rights), MaxOf(bottoms)))
  }

  // ---------------------------------------------------------------------------
  // Two-pass detection

  /** What the two-pass detection returns: nothing found, or the best box's
      centre in the cropped image with the crop's top-left corner. */
  datatype CropResult = NothingDetected | Detected(center: Vec2, topLeft: Vec2)

  /** Runs the second pass on the region covering all first-pass boxes.
      `pass2` stands for cropping to a region and detecting on the crop. No
      first-pass or no second-pass boxes give nothing; otherwise the best
      second-pass box's centre is returned with the region's top-left. */
  function RunObjectDetectionWithCrop(pass1: seq<Box>, pass2: Region -> seq<Detection>): (r: CropResult)
    ensures |pass1| == 0 ==> r == NothingDetected
    ensures |pass1| > 0 ==>
      var region := RegionContainingAllBoxes(pass1).value;
      var second := pass2(region);
      var best := DetermineBestBox(second);
      && (r.NothingDetected? <==> |second| == 0)
      && (r.Detected? ==>
            && r.topLeft == Vec2(region.left, region.top)
            && best.Ok?
            && r.center == Vec2(best.value.box.x, best.value.box.y)
            && (exists d :: d in Survivors(second) && r.center == Vec2(d.box.x, d.box.y)
                 && forall e :: e in Survivors(second) ==> e.confidence <= d.confidence))
  {
    if |pass1| == 0 then NothingDetected
    else
      var region := RegionContainingAllBoxes(pass1).value;
      var second := pass2(region);
      if |second| == 0 then NothingDetected
      else
        var best := DetermineBestBox(second).value;
        Detected(Vec2(best.box.x, best.box.y), Vec2(region.left, region.top))
  }

  // ---------------------------------------------------------------------------
  // Scaling normalised boxes to pixels

  /** The model's normalised box times `[w, h, w, h]`. */
  function ScaleBox(b: Box, imageWidth: real, imageHeight: real): Box {
    Box(b.x * imageWidth, b.y * imageHeight, b.w * imageWidth, b.h * imageHeight)
  }

  /** What the model reports for one box before scaling: the normalised box,
      its confidence and its phrase. */
  datatype RawDetection = RawDetection(box: Box, confidence: real, phrase: string)

  /** The inference step's output, zipped per box: each normalised box is
      kept next to its pixel box, which is the normalised one times
      `[w, h, w, h]` for the image's width and height. */
  function ScaleDetections(raw: seq<RawDetection>, imageWidth: real, imageHeight: real): (r: seq<Detection>)
    ensures |r| == |raw|
    ensures forall k :: 0 <= k < |r| ==>
      && r[k].unscaled == raw[k].box
      && r[k].box == ScaleBox(r[k].unscaled, imageWidth, imageHeight)
      && r[k].confidence == raw[k].confidence && r[k].phrase == raw[k].phrase
  {
    seq(|raw|, k requires 0 <= k < |raw| =>
      Detection(raw[k].box, ScaleBox(raw[k].box, imageWidth, imageHeight), raw[k].confidence, raw[k].phrase))
  }

  /** Whether a box holds another detection's centre does not depend on the
      image size the boxes were scaled to: in pixels it is the same answer
      as on the normalised boxes (a scale of 1 by 1). */
  lemma ContainmentIgnoresImageSize(b: Box, raw: seq<RawDetection>, imageWidth: real, imageHeight: real)
    requires imageWidth > 0.0 && imageHeight > 0.0
    ensures CheckContainsBox(ScaleBox(b, imageWidth, imageHeight), ScaleDetections(raw, imageWidth, imageHeight))
            == CheckContainsBox(b, ScaleDetections(raw, 1.0, 1.0))
  {
    var pixels := ScaleDetections(raw, imageWidth, imageHeight);
    var unit := ScaleDetections(raw, 1.0, 1.0);
    forall k | 0 <= k < |raw|
      ensures CentreInside(ScaleBox(b, imageWidth, imageHeight), pixels[k].box) <==> CentreInside(b, unit[k].box)
    {
      ScalingPreservesContainment(b, raw[k].box, imageWidth, imageHeight);
      assert unit[k].box == raw[k].box;
    }
  }

  /** Containment does not depend on whether boxes are compared normalised
      or in pixels. */
  lemma ScalingPreservesContainment(a: Box, b: Box, imageWidth: real, imageHeight: real)
    requires imageWidth > 0.0 && imageHeight > 0.0
    ensures CentreInside(ScaleBox(a, imageWidth, imageHeight), ScaleBox(b, imageWidth, imageHeight))
            <==> CentreInside(a, b)
  {
    IntervalScales(a.x, a.w, b.x, imageWidth);
    IntervalScales(a.y, a.h, b.y, imageHeight);
  }

  /** Along one axis: a point lies strictly inside an extent exactly when the
      scaled point lies strictly inside the scaled extent. */
  lemma IntervalScales(c: real, d: real, p: real, k: real)
    requires k > 0.0
    ensures (c * k - (d * k) / 2.0 < p * k < c * k + (d * k) / 2.0) <==> (c - d / 2.0 < p < c + d / 2.0)
  {
    EdgesScale(c, d, k);
    ScalingKeepsOrder(c - d / 2.0, p, k);
    ScalingKeepsOrder(p, c + d / 2.0, k);
  }

  /** The edges of a scaled extent are the scaled edges. */
  lemma EdgesScale(c: real, d: real, k: real)
    ensures c * k - (d * k) / 2.0 == (c - d / 2.0) * k
    ensures c * k + (d * k) / 2.0 == (c + d / 2.0) * k
  {
  }

  lemma ScalingKeepsOrder(u: real, v: real, k: real)
    requires k > 0.0
    ensures u < v <==> u * k < v * k
  {
    assert v * k - u * k == (v - u) * k;
  }
}

=== FILE: object_detector.dfy ===
/** The device side of object detection: uploading the picture, turning the
    server's answer into a hand kind and a screen point, and handing both to
    the spatial mapper. */
module ObjectDetector {

  import opened Common
  import opened Geometry
  import opened Text
  import opened VisualController
  import opened SpatialMapping
  import InstructionController

  /** The action names the detector understands, lower case. */
  function ActionName(h: Hand): string
    requires IsGesture(h)
  {
    match h
    case Press => "press"
    case Twist => "twist"
    case Pickup => "pick up"
    case Pull => "pull"
  }

  /** The hand kind for an action string, ignoring letter case; anything
      other than the four names gives `Error`. */
  function GetHandVisual(handType: string): (h: Hand)
    ensures h != NumHands
    ensures h == Press <==> ToLower(handType) == "press"
    ensures h == Twist <==> ToLower(handType) == "twist"
    ensures h == Pickup <==> ToLower(handType) == "pick up"
    ensures h == Pull <==> ToLower(handType) == "pull"
  {
    var action := ToLower(handType);
    if action == "press" then Press
    else if action == "twist" then Twist
    else if action == "pick up" then Pickup
    else if action == "pull" then Pull
    else Error
  }

  /** Every real kind is recognised from its own name. */
  lemma HandNamesRoundTrip(h: Hand)
    requires IsGesture(h)
    ensures GetHandVisual(ActionName(h)) == h
  {
    assert ToLower(ActionName(h)) == ActionName(h);
  }

  /** Letter case does not matter. */
  lemma GetHandVisualIgnoresCase(a: string, b: string)
    requires ToLower(a) == ToLower(b)
    ensures GetHandVisual(a) == GetHandVisual(b)
  {
  }

  // ---------------------------------------------------------------------------
  // Image pixels to screen pixels

  /** The resolution the photo was taken at. */
  datatype Resolution = Resolution(width: int, height: int)

  predicate ValidResolution(image: Resolution) {
    image.width > 0 && image.height > 0
  }

  /** Rescales a point from photo pixels (origin top-left) to the saved
      camera's screen pixels (origin bottom-left). */
  function TransformBoxToScreenPixels(p: Vec2, camera: Camera, image: Resolution): (q: Vec2)
    requires ValidResolution(image)
    ensures q.x * (image.width as real) == p.x * (camera.pixelWidth as real)
    ensures (camera.pixelHeight as real - q.y) * (image.height as real) == p.y * (camera.pixelHeight as real)
  {
    var widthScale := camera.pixelWidth as real / image.width as real;
    var heightScale := camera.pixelHeight as real / image.height as real;
    Vec2(p.x * widthScale, camera.pixelHeight as real - p.y * heightScale)
  }

  /** The inverse mapping, screen pixels back to photo pixels. */
  function ScreenToImagePixels(q: Vec2, camera: Camera, image: Resolution): Vec2
    requires camera.pixelWidth > 0 && camera.pixelHeight > 0
  {
    Vec2(q.x * image.width as real / camera.pixelWidth as real,
         (camera.pixelHeight as real - q.y) * image.height as real / camera.pixelHeight as real)
  }

  /** Rescaling loses nothing: mapping back recovers the photo point. */
  lemma TransformRoundTrip(p: Vec2, camera: Camera, image: Resolution)
    requires ValidResolution(image) && camera.pixelWidth > 0 && camera.pixelHeight > 0
    ensures ScreenToImagePixels(TransformBoxToScreenPixels(p, camera, image), camera, image) == p
  {
    var q := TransformBoxToScreenPixels(p, camera, image);
    var W := camera.pixelWidth as real;
    var H := camera.pixelHeight as real;
    var w := image.width as real;
    var h := image.height as real;
    assert q.x * w == p.x * W;
    assert (H - q.y) * h == p.y * H;
    assert q.x * w / W == p.x;
    assert (H - q.y) * h / H == p.y;
  }

  /** The photo's corners and centre land on the screen's: top-left goes to
      (0, H), bottom-right to (W, 0), centre to centre. */
  lemma TransformCornersAndCentre(camera: Camera, image: Resolution)
    requires ValidResolution(image)
    ensures TransformBoxToScreenPixels(Vec2(0.0, 0.0), camera, image) == Vec2(0.0, camera.pixelHeight as real)
    ensures TransformBoxToScreenPixels(Vec2(image.width as real, image.height as real), camera, image)
            == Vec2(camera.pixelWidth as real, 0.0)
    ensures TransformBoxToScreenPixels(Vec2(image.width as real / 2.0, image.height as real / 2.0), camera, image)
            == Vec2(camera.pixelWidth as real / 2.0, camera.pixelHeight as real / 2.0)
  {
    var W := camera.pixelWidth as real;
    var H := camera.pixelHeight as real;
    var w := image.width as real;
    var h := image.height as real;
    assert w * (W / w) == W;
    assert h * (H / h) == H;
    assert (w / 2.0) * (W / w) == W / 2.0;
    assert (h / 2.0) * (H / h) == H / 2.0;
  }

  // ---------------------------------------------------------------------------
  // Handling a detection

  /** The server's answer: an action name and a centre point. */
  datatype DetectionResults = DetectionResults(action: string, center: seq<real>)

  /** The calls made on the spatial mapper, in order. */
  datatype MapperCall = StoreMap(instructionNum: nat, location: Vec2, hand: Hand) | ClearSaved

  /** What was logged when nothing was placed. */
  datatype Note = NothingFound | InvalidAction | Resolved

  datatype Handled = Handled(mapper: Mapper, calls: seq<MapperCall>, note: Note, fault: Option<Fault>)

  /** Handles a detection for the instruction that was current when the
      photo was taken.
      - An empty centre or empty action places nothing.
      - A centre with one coordinate faults on reading the second.
      - Without a saved camera the rescaling dereferences null.
      - An unknown action calls nothing on the mapper.
      - A known action resolves the point with the saved camera, then
        releases the saved camera. */
  function HandleDetectionResults(m: Mapper, results: DetectionResults, instructionNum: nat,
                                  image: Resolution, cast: RayCast, placePickup: PickupPlacer): (r: Handled)
    requires WellFormedRig(m.rig) && ValidResolution(image)
    ensures (|results.center| == 0 || |results.action| == 0) ==> r == Handled(m, [], NothingFound, None)
    ensures |results.center| == 1 && |results.action| > 0 ==> r == Handled(m, [], Resolved, Some(ArgumentOutOfRange))
    ensures |results.center| >= 2 && |results.action| > 0 && m.saved.None? ==>
      r == Handled(m, [], Resolved, Some(NullReference))
    ensures r.calls != [] ==> |results.center| >= 2 && m.saved.Some?
    ensures GetHandVisual(results.action) == Error ==> r.calls == [] && r.mapper == m
    ensures |results.center| >= 2 && |results.action| > 0 && m.saved.Some? && GetHandVisual(results.action) != Error ==>
      && r.fault.None?
      && r.calls == [StoreMap(instructionNum,
                              TransformBoxToScreenPixels(Vec2(results.center[0], results.center[1]), m.saved.value, image),
                              GetHandVisual(results.action)),
                     ClearSaved]
      && r.mapper.saved.None?
    ensures r.fault.None? && r.calls == [] ==> r.mapper == m
  {
    if |results.center| > 0 && |results.action| > 0 then
      if |results.center| < 2 then Handled(m, [], Resolved, Some(ArgumentOutOfRange))
      else if m.saved.None? then Handled(m, [], Resolved, Some(NullReference))
      else
        var location := TransformBoxToScreenPixels(Vec2(results.center[0], results.center[1]), m.saved.value, image);
        var visual := GetHandVisual(results.action);
        if visual == Error then Handled(m, [], InvalidAction, None)
        else
          var stored := StoreMapFromMesh(m, instructionNum, location, Gesture(visual), false, cast, placePickup);
          var cleared := ClearState(stored.mapper);
          Handled(cleared.mapper, [StoreMap(instructionNum, location, visual), ClearSaved], Resolved, cleared.fault)
    else
      Handled(m, [], NothingFound, None)
  }

  // ---------------------------------------------------------------------------
  // Uploading the picture

  /** How the POST ended: a transport or server failure, or a decoded body. */
  datatype Transport = TransportFailure | Delivered(body: DetectionResults)

  /** The observable steps of one upload. */
  datatype UploadEvent =
    | Thrown(fault: Fault)
    | RequestSent
    | DetectionComplete(results: DetectionResults, instructionNum: int)
    | DeleteAttempted

  /** Uploads the picture taken for `currInstruction`. A failed check throws
      before any request and before the file is deleted. Otherwise the
      request is sent; a delivered answer raises the completion event once,
      with the index captured at photo time; a transport failure raises
      none. The event runs its listener synchronously and lets its exception
      through: `listenerFault` is what the listener threw for the delivered
      body, if anything, and it ends the upload before the delete. Otherwise
      deletion of the picture is attempted last. */
  function UploadImage(fileExists: bool, currInstruction: int, instructionCount: nat, response: Transport,
                       listenerFault: Option<Fault>): (trace: seq<UploadEvent>)
    ensures !fileExists ==> trace == [Thrown(FileNotFound)]
    ensures fileExists && currInstruction > instructionCount ==> trace == [Thrown(ArgumentOutOfRange)]
    ensures fileExists && currInstruction <= instructionCount ==>
      && |trace| >= 2
      && trace[0] == RequestSent
      && (response.Delivered? <==> exists k :: 0 <= k < |trace| && trace[k].DetectionComplete?)
      && (trace[|trace| - 1] == DeleteAttempted <==> response.TransportFailure? || listenerFault.None?)
      && (response.Delivered? && listenerFault.Some? ==> trace[|trace| - 1] == Thrown(listenerFault.value))
    ensures forall k :: 0 <= k < |trace| && trace[k].Thrown? ==> k == |trace| - 1
    ensures DeleteAttempted in trace ==> trace[|trace| - 1] == DeleteAttempted
    ensures forall i, j :: 0 <= i < |trace| && 0 <= j < |trace| && trace[i].DetectionComplete? && trace[j].DetectionComplete? ==> i == j
    ensures forall k :: 0 <= k < |trace| && trace[k].DetectionComplete? ==>
      response.Delivered? && trace[k] == DetectionComplete(response.body, currInstruction)
  {
    match InstructionController.CheckPictureUpload(fileExists, currInstruction, instructionCount)
    case Some(f) => [Thrown(f)]
    case None =>
      match response
      case TransportFailure => [RequestSent, DeleteAttempted]
      case Delivered(body) =>
        var last := if listenerFault.Some? then Thrown(listenerFault.value) else DeleteAttempted;
        var trace := [RequestSent, DetectionComplete(body, currInstruction), last];
        assert trace[1].DetectionComplete?;
        trace
  }

  /** One upload whose completion event is handled by
      `HandleDetectionResults` for the instruction captured at photo time:
      the upload's events, and what the handler did (nothing when no body
      arrived). */
  datatype Round = Round(trace: seq<UploadEvent>, handled: Handled)

  function UploadAndHandle(m: Mapper, fileExists: bool, n: nat, instructionCount: nat, response: Transport,
                           image: Resolution, cast: RayCast, placePickup: PickupPlacer): (r: Round)
    requires WellFormedRig(m.rig) && ValidResolution(image)
    ensures r.trace == UploadImage(fileExists, n, instructionCount, response, r.handled.fault)
    ensures fileExists && n <= instructionCount && response.Delivered? ==>
      r.handled == HandleDetectionResults(m, response.body, n, image, cast, placePickup)
    ensures !(fileExists && n <= instructionCount && response.Delivered?) ==> r.handled.calls == [] && r.handled.mapper == m
  {
    var handled :=
      if fileExists && n <= instructionCount && response.Delivered? then
        HandleDetectionResults(m, response.body, n, image, cast, placePickup)
      else Handled(m, [], NothingFound, None);
    Round(UploadImage(fileExists, n, instructionCount, response, handled.fault), handled)
  }

  /** A delivered detection with a known action and a saved camera stores the
      cue at the captured index, releases the camera, and the picture is
      then deleted. */
  lemma DeliveredDetectionStoresThenDeletes(m: Mapper, n: nat, instructionCount: nat, body: DetectionResults,
                                            image: Resolution, cast: RayCast, placePickup: PickupPlacer)
    requires WellFormedRig(m.rig) && ValidResolution(image)
    requires n <= instructionCount && m.saved.Some?
    requires |body.center| >= 2 && |body.action| > 0 && GetHandVisual(body.action) != Error
    ensures var r := UploadAndHandle(m, true, n, instructionCount, Delivered(body), image, cast, placePickup);
      && r.trace == [RequestSent, DetectionComplete(body, n), DeleteAttempted]
      && r.handled.calls == [StoreMap(n, TransformBoxToScreenPixels(Vec2(body.center[0], body.center[1]), m.saved.value, image),
                                      GetHandVisual(body.action)),
                             ClearSaved]
      && r.handled.mapper.saved.None?
  {
  }

  /** A delivered detection whose handling throws (a centre with one
      coordinate, or no saved camera) ends the upload with that exception:
      the picture is not deleted and nothing reaches the mapper. */
  lemma FaultingDetectionKeepsPicture(m: Mapper, n: nat, instructionCount: nat, body: DetectionResults,
                                      image: Resolution, cast: RayCast, placePickup: PickupPlacer)
    requires WellFormedRig(m.rig) && ValidResolution(image)
    requires n <= instructionCount && |body.action| > 0
    requires |body.center| == 1 || (|body.center| >= 2 && m.saved.None?)
    ensures var r := UploadAndHandle(m, true, n, instructionCount, Delivered(body), image, cast, placePickup);
      && DeleteAttempted !in r.trace
      && r.trace[|r.trace| - 1] == Thrown(if |body.center| == 1 then ArgumentOutOfRange else NullReference)
      && r.handled.calls == [] && r.handled.mapper == m
  {
    var r := UploadAndHandle(m, true, n, instructionCount, Delivered(body), image, cast, placePickup);
    assert r.trace == [RequestSent, DetectionComplete(body, n), r.trace[2]];
  }
}

=== FILE: spatial_mapping.dfy ===
/** Resolving a 2D detection into a placed cue: the ray-cast layer mask, the
    saved-camera slot, the per-instruction visuals map and the branching of
    `StoreMapFromMesh`. The ray cast itself is an oracle. */
module SpatialMapping {

  import opened Common
  import opened Geometry
  import opened VisualController

  /** The physics layer the environment mesh lives on. */
  const SpatialMeshLayer: bv32 := 3

  /** `1 << spatialMeshLayer`, the mask handed to the ray cast. */
  function LayerMask(): (mask: bv32)
    ensures mask == 8
  {
    1 << SpatialMeshLayer
  }

  /** Whether a ray cast with `mask` can hit colliders on `layer`. */
  predicate LayerSelected(mask: bv32, layer: bv32)
    requires layer < 32
  {
    (mask >> layer) & 1 == 1
  }

  /** The mask lets the ray hit the mesh layer and no other layer. */
  lemma MaskSelectsOnlyMeshLayer(layer: bv32)
    requires layer < 32
    ensures LayerSelected(LayerMask(), layer) <==> layer == SpatialMeshLayer
  {
  }

  // ---------------------------------------------------------------------------
  // Visuals map

  /** Installs `visuals` as the cue of instruction `n`. The map grows with
      empty lists until index `n` exists; entry `n` becomes exactly
      `visuals`, in order; no other entry changes. The old entities are only
      dropped from the map, not destroyed. */
  function AddToVisualsMap(visualsMap: seq<seq<Entity>>, n: nat, visuals: seq<Entity>): (r: seq<seq<Entity>>)
    ensures |r| == if |visualsMap| > n then |visualsMap| else n + 1
    ensures r[n] == visuals
    ensures forall i :: 0 <= i < |visualsMap| && i != n ==> r[i] == visualsMap[i]
    ensures forall i :: |visualsMap| <= i < |r| && i != n ==> r[i] == []
  {
    PadTo(visualsMap, n + 1)[n := visuals]
  }

  /** Installing twice for the same instruction keeps only the second cue. */
  lemma AddToVisualsMapOverwrites(visualsMap: seq<seq<Entity>>, n: nat, first: seq<Entity>, second: seq<Entity>)
    ensures AddToVisualsMap(AddToVisualsMap(visualsMap, n, first), n, second) == AddToVisualsMap(visualsMap, n, second)
  {
  }

  // ---------------------------------------------------------------------------
  // Saved camera

  /** A 4x4 matrix, carried around but never computed with. */
  datatype Matrix4 = Matrix4(entries: seq<real>)

  /** The camera state the ray cast needs: the pixel size of its view, its
      projection, its camera-to-world pose, whether it was re-parented under
      the camera offset, and whether it renders. */
  datatype Camera = Camera(pixelWidth: nat, pixelHeight: nat, projection: Matrix4,
                           cameraToWorld: Matrix4, underCameraOffset: bool, enabled: bool)

  /** What a photo capture frame reports about where it was taken. */
  datatype CaptureFrame = CaptureFrame(hasLocationData: bool, projection: Matrix4, cameraToWorld: Matrix4)

  /** A detection's surface point and normal. */
  datatype Hit = Hit(point: Vec3, normal: Vec3)

  /** The two slots of a two-point action: the Pickup point (slot 0) and the
      PutDown point (slot 1). */
  datatype PickupSlots = PickupSlots(source: Option<Hit>, destination: Option<Hit>)

  /** Everything the spatial mapper reads or writes. */
  datatype Mapper = Mapper(visualsMap: seq<seq<Entity>>, slots: PickupSlots, rig: Rig,
                           main: Camera, saved: Option<Camera>)

  /** Snapshot of the camera at photo time, in the single saved-camera slot.
      It starts as a copy of the main camera; when the frame has location
      data, its projection and pose come from the frame and it is placed under
      the camera offset. It never renders. Nothing else changes. */
  function StoreState(m: Mapper, frame: CaptureFrame): (r: Mapper)
    ensures r == m.(saved := r.saved) && r.saved.Some?
    ensures var c := r.saved.value;
      && c.pixelWidth == m.main.pixelWidth && c.pixelHeight == m.main.pixelHeight
      && !c.enabled
      && (frame.hasLocationData ==>
            c.projection == frame.projection && c.cameraToWorld == frame.cameraToWorld && c.underCameraOffset)
      && (!frame.hasLocationData ==> c == m.main.(enabled := false))
  {
    var copy := m.main;
    var snapshot :=
      if frame.hasLocationData then
        copy.(projection := frame.projection, cameraToWorld := frame.cameraToWorld, underCameraOffset := true)
      else copy;
    m.(saved := Some(snapshot.(enabled := false)))
  }

  datatype Cleared = Cleared(mapper: Mapper, fault: Option<Fault>)

  /** Destroys the saved camera and empties the slot. With no saved camera
      this is a null dereference and nothing changes. */
  function ClearState(m: Mapper): (r: Cleared)
    ensures m.saved.Some? ==> r.mapper == m.(saved := None) && r.fault.None?
    ensures m.saved.None? ==> r.mapper == m && r.fault == Some(NullReference)
  {
    if m.saved.None? then Cleared(m, Some(NullReference)) else Cleared(m.(saved := None), None)
  }

  /** A saved camera is consumed exactly once: storing then clearing leaves
      the slot empty and the rest of the mapper as it was. */
  lemma StoreThenClear(m: Mapper, frame: CaptureFrame)
    ensures ClearState(StoreState(m, frame)) == Cleared(m.(saved := None), None)
  {
  }

  // ---------------------------------------------------------------------------
  // StoreMapFromMesh

  /** The action to resolve: one of the hand kinds, or the PutDown half of a
      two-point action (a kind the hand enum does not declare). */
  datatype Target = Gesture(hand: Hand) | PutDown

  predicate ValidTarget(t: Target) {
    t.Gesture? ==> IsGesture(t.hand)
  }

  predicate TwoPoint(t: Target) {
    t == Gesture(Pickup) || t == PutDown
  }

  /** The outcome of `StoreMapFromMesh`: the mapper afterwards, the entities
      made visible in place (test mode), whether the "no depth" warning was
      logged, and the exception that ended the call, if any. */
  datatype MapResult = MapResult(mapper: Mapper, shown: seq<Entity>, warned: bool, fault: Option<Fault>)

  /** `foreach (v in visuals) v.SetActive(true)`: activates in order and
      stops with a null-reference fault at the first null entry. */
  function ActivateAll(visuals: seq<Option<Entity>>): (r: (seq<Entity>, Option<Fault>))
    ensures None in visuals <==> r.1 == Some(NullReference)
    ensures None !in visuals <==> r.1.None?
    ensures |r.0| <= |visuals|
    ensures forall k :: 0 <= k < |r.0| ==> visuals[k].Some? && r.0[k] == visuals[k].value.(active := true)
    decreases |visuals|
  {
    if |visuals| == 0 then ([], None)
    else if visuals[0].None? then ([], Some(NullReference))
    else
      var rest := ActivateAll(visuals[1..]);
      assert None in visuals <==> None in visuals[1..] by {
        assert visuals == [visuals[0]] + visuals[1..];
      }
      ([visuals[0].value.(active := true)] + rest.0, rest.1)
  }

  /** The non-null entries, activated; null entries are skipped. */
  function ActivatePresent(visuals: seq<Option<Entity>>): (r: seq<Entity>)
    ensures |r| <= |visuals|
    ensures forall e :: e in r ==> e.active
    ensures None !in visuals ==> |r| == |visuals|
    decreases |visuals|
  {
    if |visuals| == 0 then []
    else
      var rest := ActivatePresent(visuals[1..]);
      assert None !in visuals ==> None !in visuals[1..];
      if visuals[0].None? then rest else [visuals[0].value.(active := true)] + rest
  }

  /** The entities of an array known to hold no null. */
  function Present(visuals: seq<Option<Entity>>): (r: seq<Entity>)
    requires None !in visuals
    ensures |r| == |visuals|
    ensures forall k :: 0 <= k < |r| ==> visuals[k] == Some(r[k])
  {
    var r := seq(|visuals|, k requires 0 <= k < |visuals| => visuals[k].value);
    assert forall k :: 0 <= k < |r| ==> visuals[k] == Some(r[k]) by {
      forall k | 0 <= k < |r| ensures visuals[k] == Some(r[k]) {
        assert visuals[k] in visuals;
      }
    }
    r
  }

  /** The ray cast against the environment mesh from a camera through a
      screen point, restricted to a layer mask. */
  type RayCast = (Camera, Vec2, bv32) -> Option<Hit>

  /** Builds the cue of a two-point action from its source and destination. */
  type PickupPlacer = (Hit, Hit) -> seq<Entity>

  /** `StoreMapFromMesh`, with `nullSafe` choosing how the test-mode
      single-point branch activates what `PlaceHandVisual` returned: as
      written (`nullSafe == false`), or skipping null entries. */
  function StoreMapFromMeshWith(nullSafe: bool, m: Mapper, n: nat, location: Vec2, target: Target,
                                test: bool, cast: RayCast, placePickup: PickupPlacer): MapResult
    requires WellFormedRig(m.rig)
  {
    if !test && m.saved.None? then MapResult(m, [], false, Some(NullReference))
    else
      var camera := if test then m.main else m.saved.value;
      match cast(camera, location, LayerMask())
      case None => MapResult(m, [], true, None)
      case Some(hit) =>
        if TwoPoint(target) then
          var slots :=
            if target == PutDown then m.slots.(destination := Some(hit))
            else m.slots.(source := Some(hit));
          var m1 := m.(slots := slots);
          if slots.source.Some? && slots.destination.Some? then
            var visuals := placePickup(slots.source.value, slots.destination.value);
            if test then
              MapResult(m1, seq(|visuals|, k requires 0 <= k < |visuals| => visuals[k].(active := true)), false, None)
            else
              MapResult(m1.(visualsMap := AddToVisualsMap(m1.visualsMap, n, visuals)), [], false, None)
          else
            MapResult(m1, [], false, None)
        else if !IsGesture(target.hand) then
          MapResult(m, [], false, Some(IndexOutOfRange))
        else
          var p := PlaceHandVisual(m.rig, hit.point, hit.normal, target.hand, test);
          var m1 := m.(rig := p.rig);
          if test then
            if nullSafe then MapResult(m1, ActivatePresent(p.visuals), false, None)
            else
              var activated := ActivateAll(p.visuals);
              MapResult(m1, activated.0, false, activated.1)
          else
            MapResult(m1.(visualsMap := AddToVisualsMap(m1.visualsMap, n, Present(p.visuals))), [], false, None)
  }

  /** The spatial mapper's placement step, with null entries skipped in test
      mode.
      - Outside test mode the saved camera casts the ray (none saved: a null
        dereference, nothing changes); in test mode the main camera does.
        The mask is always the mesh layer's.
      - No hit: only the warning; nothing changes.
      - Pickup fills slot 0 and PutDown slot 1; a cue is built only once
        both slots hold a point.
      - Any other real kind gets the two-entity cue of `PlaceHandVisual`;
        `NumHands` and `Error` index past the hand table and throw.
      - Outside test mode the cue replaces instruction `n`'s entry in the
        visuals map; test mode never writes the map. */
  function StoreMapFromMesh(m: Mapper, n: nat, location: Vec2, target: Target, test: bool,
                            cast: RayCast, placePickup: PickupPlacer): (r: MapResult)
    requires WellFormedRig(m.rig)
    ensures !test && m.saved.None? ==> r == MapResult(m, [], false, Some(NullReference))
    ensures (test || m.saved.Some?) && ValidTarget(target) ==> r.fault.None?
    ensures (test || m.saved.Some?) && !ValidTarget(target) &&
            cast(if test then m.main else m.saved.value, location, LayerMask()).Some?
            ==> r == MapResult(m, [], false, Some(IndexOutOfRange))
    ensures (test || m.saved.Some?) &&
            cast(if test then m.main else m.saved.value, location, LayerMask()).None?
            ==> r == MapResult(m, [], true, None)
    ensures r.warned ==> r.mapper == m && r.shown == []
    ensures test ==> r.mapper.visualsMap == m.visualsMap
    ensures |r.mapper.visualsMap| >= |m.visualsMap|
    ensures r.mapper.main == m.main && r.mapper.saved == m.saved
    ensures !TwoPoint(target) ==> r.mapper.slots == m.slots
    ensures TwoPoint(target) ==> r.mapper.rig == m.rig
    ensures (test || m.saved.Some?) && target == Gesture(Pickup) && !r.warned ==>
      && r.mapper.slots.destination == m.slots.destination
      && r.mapper.slots.source == cast(if test then m.main else m.saved.value, location, LayerMask())
    ensures (test || m.saved.Some?) && target == PutDown && !r.warned ==>
      && r.mapper.slots.source == m.slots.source
      && r.mapper.slots.destination == cast(if test then m.main else m.saved.value, location, LayerMask())
    ensures (test || m.saved.Some?) && TwoPoint(target) && !r.warned &&
            r.mapper.slots.source.Some? && r.mapper.slots.destination.Some? ==>
      var cue := placePickup(r.mapper.slots.source.value, r.mapper.slots.destination.value);
      && r.fault.None?
      && (!test ==> r.mapper.visualsMap == AddToVisualsMap(m.visualsMap, n, cue) && r.shown == [])
      && (test ==> |r.shown| == |cue| && forall k :: 0 <= k < |cue| ==> r.shown[k] == cue[k].(active := true))
    ensures TwoPoint(target) && (m.slots.source.None? || m.slots.destination.None?) &&
            r.mapper.slots.source.Some? != r.mapper.slots.destination.Some?
            ==> r.mapper.visualsMap == m.visualsMap && r.shown == []
    ensures !test && !TwoPoint(target) && ValidTarget(target) && m.saved.Some? && !r.warned ==>
      && |r.mapper.visualsMap| > n
      && |r.mapper.visualsMap[n]| == 2
      && r.mapper.visualsMap[n][0].id >= m.rig.nextId
      && r.mapper.visualsMap[n][1].position == cast(m.saved.value, location, LayerMask()).value.point
      && (forall i :: 0 <= i < |m.visualsMap| && i != n ==> r.mapper.visualsMap[i] == m.visualsMap[i])
  {
    StoreMapFromMeshWith(true, m, n, location, target, test, cast, placePickup)
  }

  /** A two-point action across two photos: the Pickup detection alone
      leaves the visuals map as it was, and the PutDown detection of the next
      photo, cast from that photo's camera, installs the cue built from both
      hits as instruction `n`'s entry. */
  lemma PickupThenPutDownPlacesCue(m: Mapper, n: nat, pickupAt: Vec2, putDownAt: Vec2, next: Camera,
                                   cast: RayCast, placePickup: PickupPlacer)
    requires WellFormedRig(m.rig) && m.saved.Some? && m.slots == PickupSlots(None, None)
    requires cast(m.saved.value, pickupAt, LayerMask()).Some?
    requires cast(next, putDownAt, LayerMask()).Some?
    ensures var first := StoreMapFromMesh(m, n, pickupAt, Gesture(Pickup), false, cast, placePickup);
      var second := StoreMapFromMesh(first.mapper.(saved := Some(next)), n, putDownAt, PutDown, false, cast, placePickup);
      && first.fault.None? && first.mapper.visualsMap == m.visualsMap
      && second.fault.None?
      && second.mapper.visualsMap
         == AddToVisualsMap(m.visualsMap, n, placePickup(cast(m.saved.value, pickupAt, LayerMask()).value,
                                                         cast(next, putDownAt, LayerMask()).value))
  {
    var first := StoreMapFromMesh(m, n, pickupAt, Gesture(Pickup), false, cast, placePickup);
    assert first.mapper.slots == PickupSlots(cast(m.saved.value, pickupAt, LayerMask()), None);
    var m2 := first.mapper.(saved := Some(next));
    var second := StoreMapFromMesh(m2, n, putDownAt, PutDown, false, cast, placePickup);
    assert second.mapper.slots.source == first.mapper.slots.source;
  }

  /** `StoreMapFromMesh` as written: in test mode `PlaceHandVisual` returns
      two null entries, and activating them raises a null-reference fault
      after the shared hand and marker were already moved and shown. */
  function StoreMapFromMeshAsWritten(m: Mapper, n: nat, location: Vec2, target: Target, test: bool,
                                     cast: RayCast, placePickup: PickupPlacer): (r: MapResult)
    requires WellFormedRig(m.rig)
    ensures !(test && !TwoPoint(target)) ==>
      r == StoreMapFromMesh(m, n, location, target, test, cast, placePickup)
  {
    StoreMapFromMeshWith(false, m, n, location, target, test, cast, placePickup)
  }

  /** The discrepancy: a single-point test-mode hit faults as written, while
      the null-safe version shows the shared hand and marker without a
      fault. Neither writes the visuals map. */
  lemma TestModeHitFaultsAsWritten(m: Mapper, n: nat, location: Vec2, h: Hand,
                                   cast: RayCast, placePickup: PickupPlacer)
    requires WellFormedRig(m.rig) && IsGesture(h) && h != Pickup
    requires cast(m.main, location, LayerMask()).Some?
    ensures StoreMapFromMeshAsWritten(m, n, location, Gesture(h), true, cast, placePickup).fault == Some(NullReference)
    ensures var r := StoreMapFromMesh(m, n, location, Gesture(h), true, cast, placePickup);
      && r.fault.None?
      && r.mapper.rig.hands[h.Ordinal()].active && r.mapper.rig.marker.active
      && r.mapper.visualsMap == m.visualsMap
  {
  }
}

=== FILE: task_guidance.dfy ===
/** The server's glue between the parser output, the detector and the
    instruction file: reading the parser's JSON into a detector prompt,
    moving the detected centre from the crop back into the full image, and
    reading one instruction per line. */
module TaskGuidance {

  import opened Common
  import opened Geometry
  import opened Text
  import ObjectDetection

  /** The parser output file as the JSON reader sees it: missing, not valid
      JSON, or an object whose "objects" and "actions" fields may be absent. */
  datatype ParserFile =
    | FileMissing
    | InvalidJson
    | Json(objects: Option<seq<string>>, actions: Option<seq<string>>)

  /** The detector prompt and the action to perform. */
  datatype PromptAndAction = PromptAndAction(prompt: string, action: string)

  /** Joins the objects with " . " into one prompt and takes the first
      action. Only a missing file and invalid JSON become the server's
      detection exception; a missing field or an empty action list escape
      as they are. */
  function GetObjectsFromJson(file: ParserFile): (r: Outcome<PromptAndAction>)
    ensures r == Raised(DetectionException) <==> file.FileMissing? || file.InvalidJson?
    ensures r == Raised(KeyError) <==> file.Json? && (file.objects.None? || file.actions.None?)
    ensures r == Raised(IndexError) <==> file.Json? && file.objects.Some? && file.actions == Some([])
    ensures r.Ok? <==> file.Json? && file.objects.Some? && file.actions.Some? && |file.actions.value| > 0
    ensures r.Ok? ==> r.value.action == file.actions.value[0]
    ensures r.Ok? ==> r.value.prompt == Join(" . ", file.objects.value)
  {
    match file
    case FileMissing => Raised(DetectionException)
    case InvalidJson => Raised(DetectionException)
    case Json(objects, actions) =>
      if objects.None? then Raised(KeyError)
      else
        var prompt := Join(" . ", objects.value);
        if actions.None? then Raised(KeyError)
        else if |actions.value| == 0 then Raised(IndexError)
        else Ok(PromptAndAction(prompt, actions.value[0]))
  }

  /** The prompt is every object but the last followed by " . ", then the
      last object; so it is as long as the objects plus three characters
      between each neighbouring pair. No objects give an empty prompt. */
  lemma PromptJoinsObjects(file: ParserFile)
    requires GetObjectsFromJson(file).Ok?
    ensures var p := GetObjectsFromJson(file).value.prompt;
      var objects := file.objects.value;
      && (|objects| == 0 ==> p == "")
      && (|objects| > 0 ==>
            && p == Flatten(Terminated(" . ", objects[..|objects| - 1])) + objects[|objects| - 1]
            && |p| == TotalLength(objects) + (|objects| - 1) * 3)
  {
    if |file.objects.value| > 0 {
      JoinIsTerminatedParts(" . ", file.objects.value);
    }
  }

  /** Where the object is in the full image, and the action; no detection
      gives no point and an empty action. */
  datatype Located = Located(center: Option<Vec2>, action: string)

  /** Detects the prompt's objects with the two-pass detector and moves the
      centre from crop coordinates to image coordinates by adding the crop's
      top-left corner. `pass1` and `pass2` stand for the detector's passes
      on the full image and on a crop. */
  function DetectObjectsInImage(file: ParserFile, pass1: string -> seq<ObjectDetection.Box>,
                                pass2: (string, ObjectDetection.Region) -> seq<ObjectDetection.Detection>): (r: Outcome<Located>)
    ensures GetObjectsFromJson(file).Raised? ==> r == Raised(GetObjectsFromJson(file).error)
    ensures r.Ok? <==> GetObjectsFromJson(file).Ok?
    ensures r.Ok? ==>
      var pa := GetObjectsFromJson(file).value;
      var crop := ObjectDetection.RunObjectDetectionWithCrop(pass1(pa.prompt), region => pass2(pa.prompt, region));
      && (crop.NothingDetected? ==> r.value == Located(None, ""))
      && (crop.Detected? ==>
            && r.value.action == pa.action
            && r.value.center.Some?
            && r.value.center.value.x - crop.topLeft.x == crop.center.x
            && r.value.center.value.y - crop.topLeft.y == crop.center.y)
  {
    match GetObjectsFromJson(file)
    case Raised(e) => Raised(e)
    case Ok(pa) =>
      var crop := ObjectDetection.RunObjectDetectionWithCrop(pass1(pa.prompt), region => pass2(pa.prompt, region));
      match crop
      case NothingDetected => Ok(Located(None, ""))
      case Detected(center, topLeft) =>
        Ok(Located(Some(Vec2(topLeft.x + center.x, topLeft.y + center.y)), pa.action))
  }

  /** Reads the instruction file: one instruction per line, each stripped of
      surrounding whitespace. A missing or empty file raises the detection
      exception. `file` is the file's text after newline translation, or
      None when it does not exist. */
  function GetInstructionsFromFile(file: Option<string>): (r: Outcome<seq<string>>)
    ensures r.Raised? <==> file.None? || file.value == []
    ensures r.Raised? ==> r.error == DetectionException
    ensures r.Ok? ==>
      |r.value| == CountChar(file.value, '\n') + (if file.value[|file.value| - 1] != '\n' then 1 else 0)
    ensures r.Ok? ==> |r.value| == |ReadLines(file.value)|
    ensures r.Ok? ==> forall i :: 0 <= i < |r.value| ==> r.value[i] == Strip(ReadLines(file.value)[i])
    ensures r.Ok? ==> forall i :: 0 <= i < |r.value| ==>
      && '\n' !in r.value[i]
      && (r.value[i] == [] || (!IsSpace(r.value[i][0]) && !IsSpace(r.value[i][|r.value[i]| - 1])))
  {
    match file
    case None => Raised(DetectionException)
    case Some(t) =>
      var lines := ReadLines(t);
      if |lines| == 0 then Raised(DetectionException)
      else
        ReadLinesCount(t);
        Ok(StripEach(lines))
  }

  /** Every line stripped; a stripped line has no newline and no whitespace
      at either end. */
  function StripEach(lines: seq<string>): (r: seq<string>)
    requires WellSplit(lines)
    ensures |r| == |lines|
    ensures forall i :: 0 <= i < |r| ==> r[i] == Strip(lines[i])
    ensures forall i :: 0 <= i < |r| ==>
      && '\n' !in r[i]
      && (r[i] == [] || (!IsSpace(r[i][0]) && !IsSpace(r[i][|r[i]| - 1])))
  {
    var r := seq(|lines|, i requires 0 <= i < |lines| => Strip(lines[i]));
    forall i | 0 <= i < |lines| ensures '\n' !in r[i] {
      StripNoNewline(lines[i]);
    }
    r
  }

  /** Stripping a line removes its newline, which is whitespace and can only
      be its last character. */
  lemma StripNoNewline(line: string)
    requires |line| > 0 && '\n' !in line[..|line| - 1]
    ensures '\n' !in Strip(line)
  {
    var r := Strip(line);
    var a :| StrippedAt(line, a, r);
    assert r == [] || r[|r| - 1] != '\n' by {
      assert r == [] || !IsSpace(r[|r| - 1]);
    }
    MiddleAvoidsLast(line, a, r, '\n');
  }
}

=== FILE: text.dfy ===
/** The string built-ins the core relies on, as pure functions: C#'s
    `string.ToLower`, and Python's `str.join`, `str.find`, `str.rfind`,
    slicing, `str.strip`, `readlines` and `re.sub(r"\s+", " ", ...)`. */
module Text {

  import opened Common

  /** Whitespace as Python's `\s` and `str.strip()` see it, ASCII part: space,
      tab, newline, vertical tab, form feed, carriage return, and the four
      separators U+001C to U+001F. */
  predicate IsSpace(c: char) {
    || c == ' ' || c == '\t' || c == '\n' || c == '\r' || c == '\U{0B}' || c == '\U{0C}'
    || c == '\U{1C}' || c == '\U{1D}' || c == '\U{1E}' || c == '\U{1F}'
  }

  // ---------------------------------------------------------------------------
  // Lower-casing (C# string.ToLower, restricted to the ASCII letters)

  function LowerChar(c: char): char {
    if 'A' <= c <= 'Z' then (c as int + 32) as char else c
  }

  function ToLower(s: string): (r: string)
    ensures |r| == |s|
    ensures forall i :: 0 <= i < |s| ==> r[i] == LowerChar(s[i])
  {
    seq(|s|, i requires 0 <= i < |s| => LowerChar(s[i]))
  }

  // ---------------------------------------------------------------------------
  // str.join

  /** `sep.join(xs)`. The result starts with the first part and is as long
      as the parts plus one separator between each neighbouring pair. */
  function Join(sep: string, xs: seq<string>): (r: string)
    ensures |xs| == 0 ==> r == ""
    ensures |xs| > 0 ==> xs[0] <= r && |r| == TotalLength(xs) + (|xs| - 1) * |sep|
    decreases |xs|
  {
    if |xs| == 0 then ""
    else if |xs| == 1 then xs[0]
    else xs[0] + sep + Join(sep, xs[1..])
  }

  /** Joining a concatenation is joining the parts and gluing them with one
      more separator. */
  lemma {:induction false} JoinAppend(sep: string, a: seq<string>, b: seq<string>)
    requires |a| > 0 && |b| > 0
    ensures Join(sep, a + b) == Join(sep, a) + sep + Join(sep, b)
    decreases |a|
  {
    if |a| == 1 {
      assert (a + b)[1..] == b;
    } else {
      assert (a + b)[1..] == a[1..] + b;
      JoinAppend(sep, a[1..], b);
    }
  }

  /** Each part followed by the separator. */
  function Terminated(sep: string, xs: seq<string>): (r: seq<string>)
    ensures |r| == |xs|
    ensures forall i :: 0 <= i < |xs| ==> r[i] == xs[i] + sep
  {
    seq(|xs|, i requires 0 <= i < |xs| => xs[i] + sep)
  }

  /** An independent description of `join`: every part but the last
      followed by the separator, then the last part. */
  lemma {:induction false} JoinIsTerminatedParts(sep: string, xs: seq<string>)
    requires |xs| > 0
    ensures Join(sep, xs) == Flatten(Terminated(sep, xs[..|xs| - 1])) + xs[|xs| - 1]
    decreases |xs|
  {
    var n := |xs|;
    if n == 1 {
      assert xs[..0] == [];
    } else {
      var tail := xs[1..];
      JoinIsTerminatedParts(sep, tail);
      assert tail[..n - 2] == xs[1..n - 1];
      assert tail[n - 2] == xs[n - 1];
      var t := Terminated(sep, xs[..n - 1]);
      var u := Terminated(sep, xs[1..n - 1]);
      forall i | 0 <= i < |u| ensures t[1..][i] == u[i] {
        assert xs[..n - 1][i + 1] == xs[1..n - 1][i];
      }
      assert t[1..] == u;
      assert Flatten(t) == (xs[0] + sep) + Flatten(t[1..]);
    }
  }

  function TotalLength(xs: seq<string>): nat
    decreases |xs|
  {
    if |xs| == 0 then 0 else |xs[0]| + TotalLength(xs[1..])
  }

  // ---------------------------------------------------------------------------
  // str.find / str.rfind for one character

  /** `s.find(c)`: index of the first `c`, or -1. */
  function Find(s: string, c: char): int {
    IndexOf(s, c)
  }

  /** `s.rfind(c)`: index of the last `c`, or -1. */
  function RFind(s: string, c: char): int {
    LastIndexOf(s, c)
  }

  // ---------------------------------------------------------------------------
  // Python slicing s[i:j] with step 1

  /** How Python turns a slice bound into a position: negative bounds count
      from the end, and the result is clamped to [0, n]. */
  function SliceBound(i: int, n: nat): (k: nat)
    ensures k <= n
    ensures 0 <= i <= n ==> k == i
    ensures i < 0 && i + n >= 0 ==> k == i + n
    ensures i + n < 0 ==> k == 0
    ensures i > n ==> k == n
  {
    if i < 0 then (if i + n < 0 then 0 else i + n)
    else if i > n then n
    else i
  }

  /** `s[i:j]`. */
  function PySlice(s: string, i: int, j: int): string {
    var a := SliceBound(i, |s|);
    var b := SliceBound(j, |s|);
    if a < b then s[a..b] else []
  }

  // ---------------------------------------------------------------------------
  // str.strip()

  /** `s.lstrip()`: `s` without its leading whitespace. */
  function StripLeft(s: string): (r: string)
    ensures |r| <= |s| && r == s[|s| - |r|..]
    ensures forall i :: 0 <= i < |s| - |r| ==> IsSpace(s[i])
    ensures r == [] || !IsSpace(r[0])
    decreases |s|
  {
    if |s| > 0 && IsSpace(s[0]) then StripLeft(s[1..]) else s
  }

  /** Where `s.strip()` starts scanning from position `i`: the first position at
      or after `i` that holds no whitespace, or `|s|`. */
  function StripStart(s: string, i: nat): (k: nat)
    requires i <= |s|
    ensures i <= k <= |s|
    ensures forall m :: i <= m < k ==> IsSpace(s[m])
    ensures k == |s| || !IsSpace(s[k])
    decreases |s| - i
  {
    if i < |s| && IsSpace(s[i]) then StripStart(s, i + 1) else i
  }

  /** Where `s.strip()` ends scanning back from position `j` without passing
      `a`: just after the last position before `j` that holds no whitespace,
      or `a`. */
  function StripEnd(s: string, a: nat, j: nat): (k: nat)
    requires a <= j <= |s|
    ensures a <= k <= j
    ensures forall m :: k <= m < j ==> IsSpace(s[m])
    ensures k == a || !IsSpace(s[k - 1])
    decreases j - a
  {
    if a < j && IsSpace(s[j - 1]) then StripEnd(s, a, j - 1) else j
  }

  /** `s.strip()`: `s` without leading and trailing whitespace. What it keeps
      is a contiguous middle of `s` with only whitespace before and after it,
      and it neither starts nor ends with whitespace. */
  function Strip(s: string): (r: string)
    ensures exists a :: StrippedAt(s, a, r)
    ensures r == [] || (!IsSpace(r[0]) && !IsSpace(r[|r| - 1]))
  {
    var a := StripStart(s, 0);
    var r := s[a..StripEnd(s, a, |s|)];
    assert StrippedAt(s, a, r);
    r
  }

  /** `r` is the slice of `s` at `a`, and everything around it is whitespace. */
  predicate StrippedAt(s: string, a: nat, r: string) {
    && a + |r| <= |s|
    && r == s[a..a + |r|]
    && (forall i :: 0 <= i < a ==> IsSpace(s[i]))
    && (forall i :: a + |r| <= i < |s| ==> IsSpace(s[i]))
  }

  /** A slice of `s` whose own last element is not `x` cannot contain `x` when
      `x` occurs in `s` at most as its last element. */
  lemma MiddleAvoidsLast<T>(s: seq<T>, a: nat, r: seq<T>, x: T)
    requires a + |r| <= |s| && r == s[a..a + |r|]
    requires |s| > 0 && x !in s[..|s| - 1]
    requires r == [] || r[|r| - 1] != x
    ensures x !in r
  {
    forall k | 0 <= k < |r| - 1 ensures r[k] != x {
      assert r[k] == s[..|s| - 1][a + k];
    }
  }

  /** Stripping twice is stripping once. */
  lemma StripIdempotent(s: string)
    ensures Strip(Strip(s)) == Strip(s)
  {
    var r := Strip(s);
    if r != [] {
      assert StripStart(r, 0) == 0;
      assert StripEnd(r, 0, |r|) == |r|;
      assert r[0..|r|] == r;
    }
  }

  // ---------------------------------------------------------------------------
  // re.sub(r"\s+", " ", s)

  /** Every maximal run of whitespace replaced by one ' '. */
  function CollapseSpaces(s: string): (r: string)
    ensures |r| == 0 <==> |s| == 0
    ensures |r| > 0 ==> (IsSpace(r[0]) <==> IsSpace(s[0]))
    ensures forall i :: 0 <= i < |r| && IsSpace(r[i]) ==> r[i] == ' '
    ensures forall i :: 0 <= i < |r| - 1 ==> !(IsSpace(r[i]) && IsSpace(r[i + 1]))
    decreases |s|
  {
    if |s| == 0 then []
    else if IsSpace(s[0]) then
      var t := StripLeft(s);
      assert |t| < |s|;
      [' '] + CollapseSpaces(t)
    else
      [s[0]] + CollapseSpaces(s[1..])
  }

  /** The non-whitespace characters of `s`, in order. */
  function Visible(s: string): string
    decreases |s|
  {
    if |s| == 0 then []
    else if IsSpace(s[0]) then Visible(s[1..])
    else [s[0]] + Visible(s[1..])
  }

  lemma {:induction false} VisibleStripLeft(s: string)
    ensures Visible(StripLeft(s)) == Visible(s)
    decreases |s|
  {
    if |s| > 0 && IsSpace(s[0]) {
      VisibleStripLeft(s[1..]);
    }
  }

  /** Collapsing whitespace keeps every visible character, in order. */
  lemma {:induction false} CollapseKeepsVisible(s: string)
    ensures Visible(CollapseSpaces(s)) == Visible(s)
    decreases |s|
  {
    if |s| == 0 {
    } else if IsSpace(s[0]) {
      var t := StripLeft(s);
      CollapseKeepsVisible(t);
      VisibleStripLeft(s);
      assert ([' '] + CollapseSpaces(t))[1..] == CollapseSpaces(t);
    } else {
      CollapseKeepsVisible(s[1..]);
      assert ([s[0]] + CollapseSpaces(s[1..]))[1..] == CollapseSpaces(s[1..]);
    }
  }

  /** The substitution read one character at a time: a whitespace character
      right after whitespace is dropped, any other whitespace character
      becomes ' ', and every other character is kept. `afterSpace` says
      whether the character before `s` was whitespace. */
  function CollapseByCharacter(s: string, afterSpace: bool): string
    decreases |s|
  {
    if |s| == 0 then []
    else if IsSpace(s[0]) then (if afterSpace then [] else [' ']) + CollapseByCharacter(s[1..], true)
    else [s[0]] + CollapseByCharacter(s[1..], false)
  }

  /** After whitespace, the leading whitespace of `s` is all dropped. */
  lemma {:induction false} CollapseByCharacterSkipsRun(s: string)
    ensures CollapseByCharacter(s, true) == CollapseByCharacter(StripLeft(s), false)
    decreases |s|
  {
    if |s| > 0 && IsSpace(s[0]) {
      CollapseByCharacterSkipsRun(s[1..]);
    }
  }

  /** Replacing each run of whitespace by one ' ' is the same as the
      character-by-character reading: no run is lost, none is split. */
  lemma {:induction false} CollapseIsCharacterwise(s: string)
    ensures CollapseSpaces(s) == CollapseByCharacter(s, false)
    decreases |s|
  {
    if |s| == 0 {
    } else if IsSpace(s[0]) {
      var t := StripLeft(s);
      CollapseIsCharacterwise(t);
      CollapseByCharacterSkipsRun(s[1..]);
      assert StripLeft(s[1..]) == t;
    } else {
      CollapseIsCharacterwise(s[1..]);
    }
  }

  /** Collapsing an already collapsed string changes nothing. */
  lemma {:induction false} CollapseIdempotent(s: string)
    ensures CollapseSpaces(CollapseSpaces(s)) == CollapseSpaces(s)
    decreases |s|
  {
    if |s| == 0 {
    } else if IsSpace(s[0]) {
      var t := StripLeft(s);
      var c := CollapseSpaces(t);
      CollapseIdempotent(t);
      assert StripLeft([' '] + c) == c by {
        assert ([' '] + c)[1..] == c;
      }
    } else {
      var c := CollapseSpaces(s[1..]);
      CollapseIdempotent(s[1..]);
      assert ([s[0]] + c)[1..] == c;
    }
  }

  // ---------------------------------------------------------------------------
  // file.readlines()

  /** The lines of a text, each keeping its terminating newline; the last line
      has none when the text does not end in one. A character other than a
      newline belongs to the line that the rest of the text starts with. */
  function SplitLines(t: string): seq<string>
    decreases |t|
  {
    if |t| == 0 then []
    else
      var rest := SplitLines(t[1..]);
      if t[0] == '\n' || |rest| == 0 then [[t[0]]] + rest
      else [[t[0]] + rest[0]] + rest[1..]
  }

  /** Every line is non-empty, has a newline only at its end, and every line
      but the last ends in one. */
  predicate WellSplit(lines: seq<string>) {
    && (forall k :: 0 <= k < |lines| ==> |lines[k]| > 0)
    && (forall k :: 0 <= k < |lines| ==> '\n' !in lines[k][..|lines[k]| - 1])
    && (forall k :: 0 <= k < |lines| - 1 ==> lines[k][|lines[k]| - 1] == '\n')
  }

  lemma {:induction false} SplitLinesShape(t: string)
    ensures |SplitLines(t)| == 0 <==> |t| == 0
    ensures WellSplit(SplitLines(t))
    decreases |t|
  {
    if |t| > 0 {
      var rest := SplitLines(t[1..]);
      SplitLinesShape(t[1..]);
      if t[0] == '\n' || |rest| == 0 {
        ConsLine([t[0]], rest);
      } else {
        ExtendFirstLine(t[0], rest);
      }
    }
  }

  /** A line that is a newline, or a lone last line, put in front of
      well-split lines keeps them well split. */
  lemma ConsLine(line: string, rest: seq<string>)
    requires |line| == 1 && (line[0] == '\n' || |rest| == 0)
    requires WellSplit(rest)
    ensures WellSplit([line] + rest)
  {
    var lines := [line] + rest;
    forall k | 1 <= k < |lines| ensures lines[k] == rest[k - 1] { }
  }

  /** A character other than a newline put at the start of the first of
      well-split lines keeps them well split. */
  lemma ExtendFirstLine(c: char, rest: seq<string>)
    requires c != '\n' && |rest| > 0
    requires WellSplit(rest)
    ensures WellSplit([[c] + rest[0]] + rest[1..])
  {
    var first := [c] + rest[0];
    var lines := [first] + rest[1..];
    assert first[..|first| - 1] == [c] + rest[0][..|rest[0]| - 1];
    assert first[|first| - 1] == rest[0][|rest[0]| - 1];
    forall k | 1 <= k < |lines| ensures lines[k] == rest[k] { }
  }

  /** `file.readlines()`. */
  function ReadLines(t: string): (lines: seq<string>)
    ensures |lines| == 0 <==> |t| == 0
    ensures WellSplit(lines)
  {
    SplitLinesShape(t);
    SplitLines(t)
  }

  /** Gluing the lines back together gives the text. */
  lemma ReadLinesRoundTrip(t: string)
    ensures Flatten(ReadLines(t)) == t
  {
    SplitLinesRoundTrip(t);
  }

  lemma {:induction false} SplitLinesRoundTrip(t: string)
    ensures Flatten(SplitLines(t)) == t
    decreases |t|
  {
    if |t| > 0 {
      var rest := SplitLines(t[1..]);
      SplitLinesRoundTrip(t[1..]);
      SplitLinesShape(t[1..]);
      assert t == [t[0]] + t[1..];
      if t[0] == '\n' || |rest| == 0 {
        var lines := [[t[0]]] + rest;
        assert lines[1..] == rest;
      } else {
        var lines := [[t[0]] + rest[0]] + rest[1..];
        assert lines[1..] == rest[1..];
        assert Flatten(rest) == rest[0] + Flatten(rest[1..]);
        assert Flatten(lines) == ([t[0]] + rest[0]) + Flatten(rest[1..]);
      }
    }
  }

  /** The number of occurrences of `c` in `s`. */
  function CountChar(s: string, c: char): nat
    decreases |s|
  {
    if |s| == 0 then 0 else (if s[0] == c then 1 else 0) + CountChar(s[1..], c)
  }

  lemma {:induction false} SplitLinesCount(t: string)
    ensures |SplitLines(t)| == CountChar(t, '\n') + (if |t| > 0 && t[|t| - 1] != '\n' then 1 else 0)
    decreases |t|
  {
    if |t| > 0 {
      var rest := SplitLines(t[1..]);
      SplitLinesCount(t[1..]);
      SplitLinesShape(t[1..]);
      if |t| > 1 {
        assert t[1..][|t| - 2] == t[|t| - 1];
      }
    }
  }

  /** `readlines()` yields one line per newline, plus one for a last line
      without a newline. */
  lemma ReadLinesCount(t: string)
    ensures |ReadLines(t)| == CountChar(t, '\n') + (if |t| > 0 && t[|t| - 1] != '\n' then 1 else 0)
  {
    SplitLinesCount(t);
  }
}

=== FILE: visual_controller.dfy ===
/** Placement of the hand cue and the intersection marker for a single-point
    action (positions only; rotations are left out). */
module VisualController {

  import opened Common
  import opened Geometry

  /** The `Hand` enum in declaration order. `NumHands` counts the four real
      kinds; `Error` marks an action that names none of them. */
  datatype Hand = Press | Twist | Pickup | Pull | NumHands | Error {
    /** The enum's integer value, `(int)hand`. */
    function Ordinal(): nat {
      match this
      case Press => 0
      case Twist => 1
      case Pickup => 2
      case Pull => 3
      case NumHands => 4
      case Error => 5
    }
  }

  /** `(int)Hand.NumHands`, the length of the `hands` and standoff arrays. */
  const HandCount: nat := NumHands.Ordinal()

  /** A kind the per-hand arrays have an entry for. */
  predicate IsGesture(h: Hand) {
    h.Ordinal() < HandCount
  }

  /** The `distanceFromCenter` array, indexed by `(int)hand`. */
  const DistanceFromCenter: seq<real> := [0.20, 0.10, 0.10, 0.10]

  /** How far the hand model stands off the surface point. */
  function Standoff(h: Hand): (d: real)
    requires IsGesture(h)
    ensures d == (if h == Press then 0.20 else 0.10)
  {
    DistanceFromCenter[h.Ordinal()]
  }

  /** Exactly the four real kinds have a table entry. */
  lemma GestureKinds(h: Hand)
    ensures IsGesture(h) <==> h in {Press, Twist, Pickup, Pull}
  {
  }

  /** Where the hand model goes: straight up from the surface point for
      Pickup, along the surface normal for every other kind. */
  function HandPosition(location: Vec3, normal: Vec3, h: Hand): (p: Vec3)
    requires IsGesture(h)
  {
    if h == Pickup then Add(location, Scale(Up, Standoff(h)))
    else Add(location, Scale(normal, Standoff(h)))
  }

  /** What a scene object is a copy of. */
  datatype Role = HandModel(hand: Hand) | IntersectionMarker | PickupCue

  /** A scene object: identity, role, world position and `activeSelf`. */
  datatype Entity = Entity(id: nat, role: Role, position: Vec3, active: bool)

  /** The controller's shared objects: one template per hand kind, the marker
      template, and the next identity `Instantiate` hands out. */
  datatype Rig = Rig(hands: seq<Entity>, marker: Entity, nextId: nat)

  predicate WellFormedRig(rig: Rig) {
    |rig.hands| == HandCount
  }

  /** `Instantiate(template, position, ...)`: a copy with a new identity. */
  function Instantiate(template: Entity, id: nat, position: Vec3): Entity {
    template.(id := id, position := position)
  }

  /** The result of `PlaceHandVisual`: the returned two-element array (null
      entries as None) and the controller's objects afterwards. */
  datatype Placement = Placement(visuals: seq<Option<Entity>>, rig: Rig)

  /** Places the cue for a single-point action at a surface `location` with
      surface `normal`. Outside test mode it returns two fresh copies, the
      hand at its standoff position and the marker on the surface, and
      touches no shared object. In test mode it moves and shows the shared
      hand and marker objects and returns two nulls. */
  function PlaceHandVisual(rig: Rig, location: Vec3, normal: Vec3, h: Hand, test: bool): (p: Placement)
    requires WellFormedRig(rig) && IsGesture(h)
    ensures |p.visuals| == 2 && WellFormedRig(p.rig)
    ensures !test ==>
      && p.rig == rig.(nextId := rig.nextId + 2)
      && p.visuals[0].Some? && p.visuals[1].Some?
      && p.visuals[0].value.id == rig.nextId
      && p.visuals[1].value.id == rig.nextId + 1
      && p.visuals[0].value.role == rig.hands[h.Ordinal()].role
      && p.visuals[1].value.role == rig.marker.role
      && p.visuals[1].value.position == location
      && (h == Pickup ==> Sub(p.visuals[0].value.position, location) == Scale(Up, Standoff(h)))
      && (h != Pickup ==> Sub(p.visuals[0].value.position, location) == Scale(normal, Standoff(h)))
    ensures test ==>
      && p.visuals == [None, None]
      && p.rig.nextId == rig.nextId
      && (forall k :: 0 <= k < HandCount && k != h.Ordinal() ==> p.rig.hands[k] == rig.hands[k])
      && p.rig.hands[h.Ordinal()].active && p.rig.marker.active
      && p.rig.hands[h.Ordinal()].id == rig.hands[h.Ordinal()].id
      && p.rig.marker.id == rig.marker.id
      && p.rig.marker.position == location
      && p.rig.hands[h.Ordinal()].position == HandPosition(location, normal, h)
  {
    var template := rig.hands[h.Ordinal()];
    var handPosition := HandPosition(location, normal, h);
    if test then
      var shownHand := template.(position := handPosition, active := true);
      var shownMarker := rig.marker.(position := location, active := true);
      Placement([None, None], rig.(hands := rig.hands[h.Ordinal() := shownHand], marker := shownMarker))
    else
      var hand := Instantiate(template, rig.nextId, handPosition);
      var marker := Instantiate(rig.marker, rig.nextId + 1, location);
      Placement([Some(hand), Some(marker)], rig.(nextId := rig.nextId + 2))
  }

  /** For a unit normal, the hand of a non-Pickup kind sits exactly its
      standoff distance from the surface (squared, to stay in the reals). */
  lemma StandoffDistance(rig: Rig, location: Vec3, normal: Vec3, h: Hand)
    requires WellFormedRig(rig) && IsGesture(h) && h != Pickup
    requires NormSq(normal) == 1.0
    ensures var p := PlaceHandVisual(rig, location, normal, h, false);
      NormSq(Sub(p.visuals[0].value.position, location)) == Standoff(h) * Standoff(h)
  {
    var d := Standoff(h);
    var p := PlaceHandVisual(rig, location, normal, h, false);
    assert Sub(p.visuals[0].value.position, location) == Scale(normal, d);
    assert NormSq(Scale(normal, d)) == d * d * NormSq(normal);
  }

  /** The Pickup hand position does not depend on the surface normal. */
  lemma PickupIgnoresNormal(rig: Rig, location: Vec3, n1: Vec3, n2: Vec3)
    requires WellFormedRig(rig)
    ensures PlaceHandVisual(rig, location, n1, Pickup, false) == PlaceHandVisual(rig, location, n2, Pickup, false)
  {
  }
}
